=== FILE: README.md ===
# Actuator template manager: a Dafny model of its core

The actuator template manager keeps templates of actuator records. A record
maps 24 field keys (name, index, data type, prefix, output, input, alarm ids,
alarm descriptions in three languages, procedures, BAD flags, causes,
actions) to text. The user instantiates a template for a list of actuator
numbers and names. Each instance expands into flat 25-cell spreadsheet rows,
with the actuator name put in place of `{ActuatorName}`. The rows are then
copied to the clipboard as tab-separated text.

This project models three pure pieces of that tool:

- **The row expander** (`excel_rows.dfy`, `clipboard.dfy`). It turns a batch
  of instances into rows and rows into clipboard text.
- **The "Use Template" dialog** (`actuator_inputs.dfy`). This covers
  validation of the typed (number, name) rows, all-or-nothing generation of
  the batch, and adding and removing input rows.
- **The template editor** (`template_editor.dfy`). Its buttons on the record
  list are modelled as functions on the record list and the selected
  position. The buttons are add, copy, delete, move up, move down, save the
  details form, and save the template.

Supporting modules:

- `schema.dfy` holds the record schema, defined once.
- `text.dfy` holds the Python string methods the code relies on (`strip`,
  `isdigit`, `isalnum`, `endswith`, `replace`, `join`), stated over ASCII text.
- `wrappers.dfy` holds `Option` and `Result`.

The widgets become plain values:

- an entry's text is a `string`;
- the list selection is an `Option<nat>`;
- the details form is a map from field key to text;
- the yes/no confirmation before a delete is a `bool`.

Exceptions and refusals become `Result` or outcome datatypes. A message
about one input row carries that row's 0-based position (the dialogs show
the position plus one). A duplicate-number message carries the number
instead. The refusal to save a template without a name carries nothing.

Python's `strip`, `isdigit` and `isalnum` are modelled for ASCII only:

- whitespace is tab, line feed, vertical tab, form feed, carriage return,
  the separators 0x1C-0x1F, and space;
- digits are `0`-`9`;
- alphanumerics are ASCII letters and digits.

Any other character is none of these. This matters for non-ASCII input, where
Python would also accept other Unicode digits, letters and spaces.

The schema has 24 keys, the same in the editor and the row expander.

## Model

| member | source | states |
|---|---|---|
| Schema.KeysDistinct | template_dialog.py:31-56 | the schema has 24 keys, each paired with its heading, and no key occurs twice |
| Schema.EmptyRecord | template_dialog.py:262-264 | the new record has exactly the schema keys, each with the empty text |
| ExcelRows.HeadersFollowSchema | excel_generator.py:10-17 | the 25 column headers are `Actuator` followed by the editor's headings, in schema order |
| ExcelRows.SubstitutedFields | excel_generator.py:38-61 | the substituted columns are name, input, inp_descr and the six alarm descriptions; the other fifteen are copied |
| Text.ReplaceAll | excel_generator.py:71 | text without the pattern is returned unchanged, and replacing the pattern by itself is the identity |
| Text.ReplaceAfterPlain | excel_generator.py:71 | when the pattern's first character does not recur in it, `x + pattern + y` with no pattern in `x` becomes `x + replacement` followed by the replacement of `y` |
| Text.ReplaceJoined | excel_generator.py:71 | pattern-free pieces joined by the pattern become the same pieces joined by the replacement: every occurrence is replaced, left to right, and nothing else changes |
| ExcelRows.ReplacePlaceholders | excel_generator.py:65-73 | empty text stays empty; text without `{ActuatorName}` is unchanged; the name `{ActuatorName}` leaves every text unchanged |
| ExcelRows.ExpandPlaceholderAfter | excel_generator.py:65-73 | the first `{ActuatorName}` becomes the name, the text before it is kept, and the text after it is expanded in turn |
| ExcelRows.ExpandEvery | excel_generator.py:65-73 | a text made of placeholder-free pieces separated by `{ActuatorName}` becomes the same pieces separated by the name |
| ExcelRows.PlaceholderLength | excel_generator.py:71 | each replaced placeholder changes the length by the name's length minus 14 |
| ExcelRows.Cell | excel_generator.py:38-61 | the cell for a schema field is its stored text, empty when the key is absent, with `{ActuatorName}` replaced by the name exactly at the nine substituted fields |
| ExcelRows.ProcessRow | excel_generator.py:34-63 | a row has 25 cells; the first is `_` plus the number; the cell after it for each schema field holds that field's text with the placeholder replaced by the name at the substituted fields and the stored text elsewhere |
| ExcelRows.ProcessRowPlainCells | excel_generator.py:38-61 | fields without the placeholder are copied as stored, an absent key gives an empty cell, and the name `{ActuatorName}` leaves every field as stored |
| ExcelRows.NameCell | excel_generator.py:38 | the first field column holds the record's name with the placeholder replaced |
| ExcelRows.ProcessRowExample | excel_generator.py:34-63 | a record named `{ActuatorName}_Foo` instantiated as number 30, name `AxisZ` gives the cells `_30` and `AxisZ_Foo` |
| ExcelRows.GenerateRows | excel_generator.py:19-32 | the row count is the total number of records over the batch |
| ExcelRows.RowsHaveWidth | excel_generator.py:19-32 | every generated row has one cell per column header, 25 in all |
| ExcelRows.RowsInOrder | excel_generator.py:23-30 | record `i` of instance `k` gives the row after all rows of the instances before `k`, with that instance's number in the first cell |
| ExcelRows.GenerateConcat | excel_generator.py:23-30 | expanding two batches in turn gives the rows of the first, then the rows of the second |
| Clipboard.ClipboardAppend | excel_generator.py:82-85 | appending a row to the rows appends its tab-joined line and a line feed to the text |
| Clipboard.CopyText | excel_generator.py:78-90 | the loop builds exactly the clipboard text of the generated rows, and the reported count is the number of records |
| Clipboard.JoinLines | excel_generator.py:81-85 | the accumulated text is each row's tab-joined line followed by a line feed, in row order |
| Clipboard.SplitLines | excel_generator.py:81-85 | cutting the text at line feeds gives each row's line, then one empty piece |
| Clipboard.ClipboardRoundTrip | excel_generator.py:81-85 | when no cell holds a tab or line feed, cutting the text at line feeds and tabs gives back the rows |
| Clipboard.MultilineCellSplitsRow | excel_generator.py:84 | a cell holding a line feed comes back as two rows |
| Text.SplitJoin | excel_generator.py:84 | joining tab-free cells with tabs and splitting at tabs gives back the cells |
| Text.StripSlice | actuator_dialog.py:226-227 | the stripped text is the slice between the leading and trailing whitespace runs, has no whitespace at either end, and is empty exactly when the text is all whitespace |
| Text.StripIdempotent | template_dialog.py:245-248 | stripping a stripped text changes nothing |
| ActuatorInputs.AddInput | actuator_dialog.py:126-169 | one more row, empty in both entries, is added at the end; the other rows stay |
| ActuatorInputs.RemoveLast | actuator_dialog.py:178-182 | the last row is dropped only when there is more than one, so the dialog never has fewer than one row |
| ActuatorInputs.RemoveUndoesAdd | actuator_dialog.py:178-182 | removing the last row after adding one restores the rows |
| ActuatorInputs.Completed | actuator_dialog.py:225-243 | at most one instance per row; every instance has a non-empty number and name and the template's records |
| ActuatorInputs.CompletedConcat | actuator_dialog.py:225-243 | instances of two runs of rows are the first run's instances, then the second's, so row order is kept |
| ActuatorInputs.CompletedEmpty | actuator_dialog.py:229-230 | no instance at all exactly when no row has both number and name |
| ActuatorInputs.CompletedAll | actuator_dialog.py:236-243 | when every row is complete, row `i` gives instance `i` with its stripped number and name and the template records |
| ActuatorInputs.GetGeneratedData | actuator_dialog.py:221-245 | succeeds exactly when every complete row's number is all digits, then returns the complete rows' instances in order; otherwise fails naming the first such row |
| ActuatorInputs.CollectInstances | actuator_dialog.py:225-245 | over the stripped rows: succeeds exactly when every complete row's number is all digits, with the complete rows' instances in order; otherwise fails at the first complete row whose number is not all digits |
| ActuatorInputs.ValidNameChars | actuator_dialog.py:265 | a name passes exactly when it consists of letters, digits, `_` and `-`, with at least one letter or digit |
| ActuatorInputs.NumberErrors | actuator_dialog.py:258-261 | no message exactly when the number is all digits; an empty number gets "required", any other non-digit number gets "not numeric"; the message is about this row |
| ActuatorInputs.NameErrors | actuator_dialog.py:263-266 | no message exactly when the name passes the check; an empty name gets "required", any other failing name gets "invalid"; the message is about this row |
| ActuatorInputs.RowErrors | actuator_dialog.py:251-266 | a row has no message exactly when it is blank or its number is all digits and its name is valid; each of the four messages is present exactly when its condition holds (empty number with a name, non-digit number, empty name with a number, bad name); at most two messages, all about this row, the number message before the name message |
| ActuatorInputs.PerRowErrorsEmpty | actuator_dialog.py:251-266 | the first loop reports nothing exactly when every row is valid |
| ActuatorInputs.PerRowErrorsOrdered | actuator_dialog.py:251-266 | the first loop reports row by row and, within a row, the number message before the name message: the messages' row-and-field positions strictly increase, so none is repeated, and all lie within the input |
| ActuatorInputs.PerRowErrorsAboutRows | actuator_dialog.py:251-266 | every message of the first loop is about a row of the input, and that row is neither blank nor valid |
| ActuatorInputs.RowMessageIn | actuator_dialog.py:251-266 | a message about row `i` is reported exactly when it is one of row `i`'s own messages: every row is checked |
| ActuatorInputs.ValidateRowMessages | actuator_dialog.py:251-266 | row `i` gets "number required" exactly when its number is empty and its name is not, "not numeric" exactly when its number is non-empty and not all digits, "name required" exactly when its name is empty and its number is not, and "invalid name" exactly when its name is non-empty and fails the check |
| ActuatorInputs.DuplicateErrors | actuator_dialog.py:268-275 | every message of the second loop is a duplicate-number message |
| ActuatorInputs.DuplicateErrorsRepeat | actuator_dialog.py:268-275 | every duplicate message names a number that at least two rows carry |
| ActuatorInputs.DuplicateErrorsEmpty | actuator_dialog.py:268-275 | the duplicate loop reports nothing exactly when no non-empty number occurs twice |
| ActuatorInputs.SeenIff | actuator_dialog.py:269-275 | a non-empty number is in the seen list exactly when it occurs in some row |
| ActuatorInputs.DuplicateErrorsSnoc | actuator_dialog.py:268-275 | one more row adds, after the earlier messages, one duplicate message for its number exactly when that number is non-empty and some earlier row carries it; so duplicate messages follow row order |
| ActuatorInputs.DuplicatesPerNumber | actuator_dialog.py:268-275 | each non-empty number is reported once for every row carrying it after the first one: its message count plus one (when it occurs at all) is its occurrence count |
| ActuatorInputs.DuplicateErrorsCount | actuator_dialog.py:268-275 | the number of duplicate messages is the number of non-empty numbers minus the number of distinct ones |
| ActuatorInputs.Validate | actuator_dialog.py:247-277 | validation passes exactly when every row is valid and the non-empty numbers are distinct; a row message names an invalid row; a number message names a number at least two rows carry; all row messages come before all number messages, and the row messages run row by row, number before name, each once |
| ActuatorInputs.GenerateActuators | actuator_dialog.py:279-299 | rejected exactly when validation reports, with those messages; never a generation error; a batch only when validation passes and some row is complete, and then the batch is the complete rows' instances |
| TemplateEditor.AddRecord | template_dialog.py:260-272 | one record is appended with exactly the schema keys, all empty; existing records stay; the new record is selected |
| TemplateEditor.CopyOf | template_dialog.py:284-291 | the copy's name ends with `_Copy`; a name already ending so is kept; otherwise `_Copy` is appended; every other field is copied |
| TemplateEditor.CopyIdempotent | template_dialog.py:288-290 | copying a copy leaves its name as it is |
| TemplateEditor.CopySelected | template_dialog.py:274-298 | the selected record's copy is appended and selected; the original list stays; without a selection nothing changes |
| TemplateEditor.DeleteSelected | template_dialog.py:300-311 | after confirmation, exactly the selected position goes, the rest keep their order, and the selection is cleared; otherwise nothing changes |
| TemplateEditor.DeleteRemovesOne | template_dialog.py:307-309 | the remaining records plus the deleted one are the original records, as a multiset |
| TemplateEditor.DeleteUndoesAdd | template_dialog.py:300-311 | deleting the record just added restores the list |
| TemplateEditor.MoveUp | template_dialog.py:313-325 | no change at the first record or without a selection; otherwise the selected record and the one above swap, nothing else moves, the selection follows, and the multiset is kept |
| TemplateEditor.MoveDown | template_dialog.py:327-339 | no change at the last record or without a selection; otherwise the selected record and the one below swap, nothing else moves, the selection follows, and the multiset is kept |
| TemplateEditor.MoveUpUndoesMoveDown | template_dialog.py:327-339 | moving down and then up restores the editor |
| TemplateEditor.MoveDownUndoesMoveUp | template_dialog.py:313-325 | moving up and then down restores the editor |
| TemplateEditor.LoadForm | template_dialog.py:211-223 | the form has a field for each schema key, showing the record's text or nothing when the key is absent |
| TemplateEditor.Saved | template_dialog.py:243-250 | every schema field is set to its stripped form text; keys outside the schema are kept |
| TemplateEditor.SaveChanges | template_dialog.py:233-258 | only the selected record changes, with its schema fields set to the stripped form text; the selection is kept; without a selection nothing changes |
| TemplateEditor.SaveLoadedIsIdentity | template_dialog.py:233-258 | saving the form just loaded from a record whose fields are present and stripped changes nothing |
| TemplateEditor.SaveIsIdempotent | template_dialog.py:243-250 | a saved record is clean, so loading it and saving again changes nothing |
| TemplateEditor.SaveTemplate | template_dialog.py:341-356 | refused exactly when the name is all whitespace; otherwise the stripped name (non-empty, no surrounding whitespace), the stripped description and the records |
| TemplateEditor.SaveTemplateIdempotent | template_dialog.py:341-356 | saving a saved template's name, description and records again gives the same template |

## Left out

- Widgets, scrolling, geometry, focus and message boxes are not modelled. Their messages are represented by datatypes (`GenerateError`, `ValidationError`, `Outcome`, `TemplateError`), not by their wording.
- The listbox refresh and its display text (`refresh_actuators_list`) are not modelled, because they are presentation only.
- The preview pane of the "Use Template" dialog (`update_preview`) is display only and is not modelled.
- Text widgets return their content with a trailing line feed. The model leaves it out because `strip` removes it on save.
- A listbox that loses its selection when text is selected elsewhere is a Tk behaviour and is not modelled.
- `copy_to_clipboard`'s `pyperclip.copy` call and its exception path are I/O and are not modelled. Only the text it builds and the row count it reports are modelled.
- `insert_into_excel`, `_find_actuator_row`, `detect_excel_files`, `generate_excel_file`, `validate_excel_format`, `get_excel_template` and `export_template_excel` are COM automation or spreadsheet file I/O. They are not modelled.
- main.py is window wiring and is not part of this model.
- template_manager.py is JSON persistence with a clock timestamp and is not part of this model.
- Stored values are assumed to be text: a record is a map from key to string. A template imported from a JSON file can hold numbers or `null` (template_manager.py:73-81). For such values the code writes `str(cell)` to the clipboard (excel_generator.py:84), for example `5` or `None`. It raises on `.replace` for a non-empty non-string value in a substituted field (excel_generator.py:71), and on `.endswith` when copying a record with such a name (template_dialog.py:289). In the model `str(cell)` is the identity and these failures cannot occur.
- Python's deep copies (`copy.deepcopy` of the template records and of a copied record) need no counterpart. Records here are values, so every instance and every copy is independent by construction.
- ActuatorInputs.GenerateActuators: assumes the template has a record list. A stored template without an `actuators` key makes `get_generated_data` raise `KeyError` (actuator_dialog.py:240), which `generate_actuators` reports as a generation error (actuator_dialog.py:298-299). The model types the template as a list of records, so that outcome never occurs here.
- The template editor edits the caller's template in place. The editor keeps the dictionary it was given (template_dialog.py:24), and add, copy, save, delete and the moves change it (template_dialog.py:250, 266, 292, 309, 321-322, 335-336). Cancel therefore leaves the edits in the manager's memory, and the next save of the template list writes them. The model's editor works on its own value and does not capture this aliasing.
- Text.ReplaceAll: its own contract states only when the text is unchanged. The full expansion is stated by `Text.ReplaceAfterPlain` and `Text.ReplaceJoined`, and only for patterns whose first character does not recur in them, as with `{ActuatorName}`.
- ExcelRows.ReplacePlaceholders: its own contract states only when the text is unchanged. The expansion is stated by `ExcelRows.ExpandPlaceholderAfter` and `ExcelRows.ExpandEvery`.
- ActuatorInputs.DuplicateErrors: its own contract says only that every message is a duplicate-number message. Which numbers are reported, and how often each, is stated by `DuplicatesPerNumber`, and their order by `DuplicateErrorsSnoc`; `DuplicateErrorsRepeat`, `DuplicateErrorsEmpty` and `DuplicateErrorsCount` state consequences of it.
- Text.Strip, Text.IsDigits, Text.IsAlnum: ASCII only, as described above. Python's Unicode whitespace, digits and letters are not modelled.
- Clipboard.ClipboardRoundTrip: holds only when no cell contains a tab or line feed. The cause and action fields are multi-line text widgets, and `Clipboard.MultilineCellSplitsRow` shows a line break in a cell becoming an extra row.

=== FILE: actuator_inputs.dfy ===
/**
  The "Use Template" dialog's decision logic: the rows of (number, name)
  entries the user filled in, their validation, and the all-or-nothing
  generation of template instances from them. The entries are plain strings
  here; the dialog reads them from its entry widgets.
 */
module ActuatorInputs {
  import opened Wrappers
  import opened Text
  import opened Schema
  import opened Seqs

  /** One row of the dialog: the raw text of its number and name entries. */
  datatype InputRow = InputRow(number: string, name: string)

  /** A row as the dialog reads it: both texts stripped of surrounding
      whitespace. */
  datatype Entry = Entry(number: string, name: string)

  function Read(row: InputRow): Entry {
    Entry(Strip(row.number), Strip(row.name))
  }

  /** Every row read, in row order. */
  function ReadAll(rows: seq<InputRow>): seq<Entry> {
    seq(|rows|, i requires 0 <= i < |rows| => Read(rows[i]))
  }

  /** Both entries filled in. */
  predicate Complete(e: Entry) {
    e.number != "" && e.name != ""
  }

  /** Both entries empty: the row is ignored by validation. */
  predicate Blank(e: Entry) {
    e.number == "" && e.name == ""
  }

  // ---------------------------------------------------------------------------
  // Adding and removing entry rows
  // ---------------------------------------------------------------------------

  /** `add_actuator_input`: one more, empty, row at the end. */
  function AddInput(rows: seq<InputRow>): (r: seq<InputRow>)
    ensures |r| == |rows| + 1
    ensures r[..|rows|] == rows
    ensures Blank(Read(r[|rows|]))
  {
    rows + [InputRow("", "")]
  }

  /** `remove_last_actuator`: drops the last row, but never the only one. */
  function RemoveLast(rows: seq<InputRow>): (r: seq<InputRow>)
    ensures |rows| >= 1 ==> |r| >= 1
    ensures |rows| > 1 ==> |r| == |rows| - 1 && r == rows[..|r|]
    ensures |rows| <= 1 ==> r == rows
  {
    if |rows| > 1 then rows[..|rows| - 1] else rows
  }

  /** The dialog always shows at least one row; adding one and removing the
      last gets back to where it was. */
  lemma RemoveUndoesAdd(rows: seq<InputRow>)
    requires |rows| >= 1
    ensures RemoveLast(AddInput(rows)) == rows
  {
  }

  // ---------------------------------------------------------------------------
  // get_generated_data
  // ---------------------------------------------------------------------------

  /** The `ValueError` raised for a filled-in row whose number is not all
      digits; `index` is the 0-based row (the message shows `index + 1`). */
  datatype GenerateError = NotNumeric(index: nat)

  /** The instance a complete row produces: its stripped number and name, and
      the template's records (a value here, so every instance owns its copy). */
  function Instantiate(e: Entry, template: seq<Record>): Instance {
    Instance(e.number, e.name, template)
  }

  /** The instances of the complete rows, in row order; incomplete rows are skipped. */
  function Completed(rows: seq<Entry>, template: seq<Record>): (batch: seq<Instance>)
    ensures |batch| <= |rows|
    ensures forall k :: 0 <= k < |batch| ==>
      batch[k].number != "" && batch[k].name != "" && batch[k].records == template
    decreases |rows|
  {
    if rows == [] then []
    else
      var last := rows[|rows| - 1];
      Completed(rows[..|rows| - 1], template) + (if Complete(last) then [Instantiate(last, template)] else [])
  }

  /** Completing two runs of rows one after the other completes each on its own. */
  lemma {:induction false} CompletedConcat(a: seq<Entry>, b: seq<Entry>, template: seq<Record>)
    ensures Completed(a + b, template) == Completed(a, template) + Completed(b, template)
    decreases |b|
  {
    if b == [] {
      assert a + b == a;
    } else {
      var init := b[..|b| - 1];
      assert (a + b)[..|a + b| - 1] == a + init;
      CompletedConcat(a, init, template);
    }
  }

  /** No instance at all exactly when no row is complete. */
  lemma {:induction false} CompletedEmpty(rows: seq<Entry>, template: seq<Record>)
    ensures Completed(rows, template) == [] <==> forall i :: 0 <= i < |rows| ==> !Complete(rows[i])
    decreases |rows|
  {
    if rows != [] {
      var init := rows[..|rows| - 1];
      CompletedEmpty(init, template);
      assert forall i :: 0 <= i < |init| ==> init[i] == rows[i];
    }
  }

  /** When every row is complete, each row gives exactly one instance, at the
      same position. */
  lemma {:induction false} CompletedAll(rows: seq<Entry>, template: seq<Record>)
    requires forall i :: 0 <= i < |rows| ==> Complete(rows[i])
    ensures Completed(rows, template)
         == seq(|rows|, i requires 0 <= i < |rows| => Instantiate(rows[i], template))
    decreases |rows|
  {
    if rows != [] {
      var init := rows[..|rows| - 1];
      CompletedAll(init, template);
    }
  }

  /** Completing one more row adds that row's instance, if it is complete. */
  lemma CompletedStep(rows: seq<Entry>, i: nat, template: seq<Record>)
    requires i < |rows|
    ensures Completed(rows[..i + 1], template)
         == Completed(rows[..i], template) + (if Complete(rows[i]) then [Instantiate(rows[i], template)] else [])
  {
    assert rows[..i + 1][..i] == rows[..i];
  }

  /** Every complete row before row `n` has an all-digit number. */
  predicate DigitsBefore(rows: seq<Entry>, n: int) {
    forall j :: 0 <= j < n && j < |rows| && Complete(rows[j]) ==> IsDigits(rows[j].number)
  }

  /** A row whose number passes extends the rows checked by one. */
  lemma DigitsStep(rows: seq<Entry>, i: nat)
    requires i < |rows| && DigitsBefore(rows, i)
    requires Complete(rows[i]) ==> IsDigits(rows[i].number)
    ensures DigitsBefore(rows, i + 1)
  {
  }

  /** A complete row with a bad number after only good ones is the first
      bad row, and not every complete row passes. */
  lemma FirstBadNumber(rows: seq<Entry>, i: nat)
    requires i < |rows| && DigitsBefore(rows, i)
    requires Complete(rows[i]) && !IsDigits(rows[i].number)
    ensures forall j :: 0 <= j < i && Complete(rows[j]) ==> IsDigits(rows[j].number)
    ensures !forall j :: 0 <= j < |rows| && Complete(rows[j]) ==> IsDigits(rows[j].number)
  {
  }

  /** Checking every row means every complete row passes. */
  lemma AllNumbersDigits(rows: seq<Entry>)
    requires DigitsBefore(rows, |rows|)
    ensures forall j :: 0 <= j < |rows| && Complete(rows[j]) ==> IsDigits(rows[j].number)
  {
  }

  /** `get_generated_data`: walks the rows in order, skipping incomplete ones;
      the first complete row whose number is not all digits aborts the whole
      call, otherwise every complete row yields its instance. */
  method GetGeneratedData(rows: seq<InputRow>, template: seq<Record>)
    returns (r: Result<seq<Instance>, GenerateError>)
    ensures var entries := ReadAll(rows);
      r.Success? <==>
        forall i :: 0 <= i < |entries| && Complete(entries[i]) ==> IsDigits(entries[i].number)
    ensures r.Success? ==> r.value == Completed(ReadAll(rows), template)
    ensures r.Failure? ==> var entries := ReadAll(rows); var i := r.error.index;
      && i < |entries|
      && Complete(entries[i])
      && !IsDigits(entries[i].number)
      && forall j :: 0 <= j < i && Complete(entries[j]) ==> IsDigits(entries[j].number)
  {
    r := CollectInstances(ReadAll(rows), template);
  }

  /** The loop of `get_generated_data` over the stripped rows. */
  method CollectInstances(entries: seq<Entry>, template: seq<Record>)
    returns (r: Result<seq<Instance>, GenerateError>)
    ensures r.Success? <==>
      forall i :: 0 <= i < |entries| && Complete(entries[i]) ==> IsDigits(entries[i].number)
    ensures r.Success? ==> r.value == Completed(entries, template)
    ensures r.Failure? ==> var i := r.error.index;
      && i < |entries|
      && Complete(entries[i])
      && !IsDigits(entries[i].number)
      && forall j :: 0 <= j < i && Complete(entries[j]) ==> IsDigits(entries[j].number)
  {
    var data: seq<Instance> := [];
    var i := 0;
    while i < |entries|
      invariant 0 <= i <= |entries|
      invariant data == Completed(entries[..i], template)
      invariant DigitsBefore(entries, i)
    {
      var e := entries[i];
      CompletedStep(entries, i, template);
      if e.number != "" && e.name != "" {
        if !IsDigits(e.number) {
          FirstBadNumber(entries, i);
          return Failure(NotNumeric(i));
        }
        data := data + [Instantiate(e, template)];
      }
      DigitsStep(entries, i);
      i := i + 1;
    }
    assert entries[..i] == entries;
    AllNumbersDigits(entries);
    return Success(data);
  }

  // ---------------------------------------------------------------------------
  // validate_inputs
  // ---------------------------------------------------------------------------

  /** The messages `validate_inputs` collects, one constructor per message;
      `index` is the 0-based row (the message shows `index + 1`). */
  datatype ValidationError =
    | NumberRequired(index: nat)
    | NumberNotNumeric(index: nat)
    | NameRequired(index: nat)
    | NameInvalid(index: nat)
    | DuplicateNumber(number: string)

  /** The name check: with every `_` and then every `-` removed, what is left
      must be a non-empty run of letters and digits. */
  predicate ValidName(name: string) {
    IsAlnum(ReplaceAll(ReplaceAll(name, "_", ""), "-", ""))
  }

  /** A name passes exactly when it is made of letters, digits, `_` and `-`
      only, with at least one letter or digit. */
  lemma ValidNameChars(name: string)
    ensures ValidName(name) <==>
      && (forall k :: 0 <= k < |name| ==> IsAlnumChar(name[k]) || name[k] == '_' || name[k] == '-')
      && (exists k :: 0 <= k < |name| && IsAlnumChar(name[k]))
  {
    var once := ReplaceAll(name, "_", "");
    var core := ReplaceAll(once, "-", "");
    DeleteChar(name, '_');
    DeleteChar(once, '-');
    assert forall d :: d != '_' && d != '-' ==> multiset(core)[d] == multiset(name)[d];
    assert forall d :: d in core <==> d in name && d != '_' && d != '-' by {
      forall d ensures d in core <==> d in name && d != '_' && d != '-' {
        assert d in core <==> multiset(core)[d] > 0;
        assert d in name <==> multiset(name)[d] > 0;
      }
    }
    if ValidName(name) {
      forall k | 0 <= k < |name|
        ensures IsAlnumChar(name[k]) || name[k] == '_' || name[k] == '-'
      {
        var c := name[k];
        if c != '_' && c != '-' {
          assert c in core;
          var m :| 0 <= m < |core| && core[m] == c;
        }
      }
      assert core[0] in name;
      var m :| 0 <= m < |name| && name[m] == core[0];
    }
    if (forall k :: 0 <= k < |name| ==> IsAlnumChar(name[k]) || name[k] == '_' || name[k] == '-')
       && (exists k :: 0 <= k < |name| && IsAlnumChar(name[k]))
    {
      var k :| 0 <= k < |name| && IsAlnumChar(name[k]);
      assert name[k] in core;
      forall m | 0 <= m < |core| ensures IsAlnumChar(core[m]) {
        assert core[m] in name;
        var n :| 0 <= n < |name| && name[n] == core[m];
      }
    }
  }

  /** A row that is blank, or whose number is all digits and whose name is valid. */
  predicate RowValid(e: Entry) {
    Blank(e) || (IsDigits(e.number) && ValidName(e.name))
  }

  /** The message is about row `i`. */
  predicate AboutRow(e: ValidationError, i: nat) {
    !e.DuplicateNumber? && e.index == i
  }

  /** Where a row message falls in the order `validate_inputs` reports them:
      row by row, the number message before the name message. Duplicate
      messages come after all row messages and have no slot of their own. */
  function Slot(e: ValidationError): nat {
    match e
    case NumberRequired(i) => 2 * i
    case NumberNotNumeric(i) => 2 * i
    case NameRequired(i) => 2 * i + 1
    case NameInvalid(i) => 2 * i + 1
    case DuplicateNumber(_) => 0
  }

  /** Row messages whose slots strictly increase: in report order, each slot once. */
  predicate InSlotOrder(errs: seq<ValidationError>) {
    forall j, k :: 0 <= j < k < |errs| ==> Slot(errs[j]) < Slot(errs[k])
  }

  /** The message about the number of row `i`, if any. */
  function NumberErrors(i: nat, number: string): (errs: seq<ValidationError>)
    ensures errs == [] <==> IsDigits(number)
    ensures number == "" ==> errs == [NumberRequired(i)]
    ensures number != "" && !IsDigits(number) ==> errs == [NumberNotNumeric(i)]
    ensures |errs| <= 1
    ensures forall k :: 0 <= k < |errs| ==> AboutRow(errs[k], i)
  {
    if number == "" then [NumberRequired(i)]
    else if !IsDigits(number) then [NumberNotNumeric(i)]
    else []
  }

  /** The message about the name of row `i`, if any. */
  function NameErrors(i: nat, name: string): (errs: seq<ValidationError>)
    ensures errs == [] <==> ValidName(name)
    ensures name == "" ==> errs == [NameRequired(i)]
    ensures name != "" && !ValidName(name) ==> errs == [NameInvalid(i)]
    ensures |errs| <= 1
    ensures forall k :: 0 <= k < |errs| ==> AboutRow(errs[k], i)
  {
    if name == "" then [NameRequired(i)]
    else if !ValidName(name) then [NameInvalid(i)]
    else []
  }

  /** The per-row messages of row `i`: nothing for a blank row; otherwise at
      most one about the number, then at most one about the name. */
  function RowErrors(i: nat, e: Entry): (errs: seq<ValidationError>)
    ensures errs == [] <==> RowValid(e)
    ensures NumberRequired(i) in errs <==> e.number == "" && e.name != ""
    ensures NumberNotNumeric(i) in errs <==> e.number != "" && !IsDigits(e.number)
    ensures NameRequired(i) in errs <==> e.name == "" && e.number != ""
    ensures NameInvalid(i) in errs <==> e.name != "" && !ValidName(e.name)
    ensures InSlotOrder(errs)
    ensures |errs| <= 2
    ensures forall k :: 0 <= k < |errs| ==> AboutRow(errs[k], i)
  {
    if Blank(e) then []
    else NumberErrors(i, e.number) + NameErrors(i, e.name)
  }

  /** The first loop of `validate_inputs`: every row's messages, in row order. */
  function PerRowErrors(rows: seq<Entry>): seq<ValidationError> {
    Flatten(seq(|rows|, i requires 0 <= i < |rows| => RowErrors(i, rows[i])))
  }

  /** The first loop reports row by row, the number message before the name
      message, each at most once. */
  lemma {:induction false} PerRowErrorsOrdered(rows: seq<Entry>)
    ensures forall k :: 0 <= k < |PerRowErrors(rows)| ==> Slot(PerRowErrors(rows)[k]) < 2 * |rows|
    ensures InSlotOrder(PerRowErrors(rows))
    decreases |rows|
  {
    if rows != [] {
      var m := |rows| - 1;
      var init := rows[..m];
      PerRowErrorsOrdered(init);
      PerRowErrorsSnoc(rows);
      var last := RowErrors(m, rows[m]);
      assert forall k :: 0 <= k < |last| ==> 2 * m <= Slot(last[k]) < 2 * m + 2 by {
        forall k | 0 <= k < |last| ensures 2 * m <= Slot(last[k]) < 2 * m + 2 {
          assert AboutRow(last[k], m);
        }
      }
      SlotsAppend(PerRowErrors(init), last, m);
    }
  }

  /** The first loop's messages for one more row are the earlier ones, then that row's. */
  lemma PerRowErrorsSnoc(rows: seq<Entry>)
    requires rows != []
    ensures PerRowErrors(rows)
         == PerRowErrors(rows[..|rows| - 1]) + RowErrors(|rows| - 1, rows[|rows| - 1])
  {
    var m := |rows| - 1;
    var init := rows[..m];
    var each := seq(|rows|, i requires 0 <= i < |rows| => RowErrors(i, rows[i]));
    var eachInit := seq(|init|, i requires 0 <= i < |init| => RowErrors(i, init[i]));
    assert each[..m] == eachInit;
  }

  /** Ordered messages below slot `2m` followed by ordered messages of row `m`
      are ordered and below slot `2m + 2`. */
  lemma SlotsAppend(a: seq<ValidationError>, b: seq<ValidationError>, m: nat)
    requires InSlotOrder(a) && InSlotOrder(b)
    requires forall k :: 0 <= k < |a| ==> Slot(a[k]) < 2 * m
    requires forall k :: 0 <= k < |b| ==> 2 * m <= Slot(b[k]) < 2 * m + 2
    ensures forall k :: 0 <= k < |a + b| ==> Slot((a + b)[k]) < 2 * m + 2
    ensures InSlotOrder(a + b)
  {
    var c := a + b;
    assert forall k :: 0 <= k < |a| ==> c[k] == a[k];
    assert forall k :: |a| <= k < |c| ==> c[k] == b[k - |a|];
  }

  /** The first loop reports nothing exactly when every row is valid. */
  lemma PerRowErrorsEmpty(rows: seq<Entry>)
    ensures PerRowErrors(rows) == [] <==> forall i :: 0 <= i < |rows| ==> RowValid(rows[i])
  {
    var each := seq(|rows|, i requires 0 <= i < |rows| => RowErrors(i, rows[i]));
    FlattenEmpty(each);
    assert forall i :: 0 <= i < |rows| ==> (each[i] == [] <==> RowValid(rows[i]));
  }

  /** Every first-loop message is about a row of the input, and that row is
      not valid. */
  lemma PerRowErrorsAboutRows(rows: seq<Entry>)
    ensures forall k :: 0 <= k < |PerRowErrors(rows)| ==>
      var e := PerRowErrors(rows)[k];
      !e.DuplicateNumber? && e.index < |rows| && !RowValid(rows[e.index])
  {
    var each := seq(|rows|, i requires 0 <= i < |rows| => RowErrors(i, rows[i]));
    forall k | 0 <= k < |PerRowErrors(rows)|
      ensures var e := PerRowErrors(rows)[k];
        !e.DuplicateNumber? && e.index < |rows| && !RowValid(rows[e.index])
    {
      var e := PerRowErrors(rows)[k];
      FlattenMember(each, e);
      var k :| 0 <= k < |each| && e in each[k];
      assert AboutRow(e, k);
    }
  }

  /** The `numbers` list of the second loop: every non-empty number, in row order. */
  function SeenNumbers(rows: seq<Entry>): (seen: seq<string>)
    ensures forall k :: 0 <= k < |seen| ==> seen[k] != ""
    decreases |rows|
  {
    if rows == [] then []
    else
      var n := rows[|rows| - 1].number;
      SeenNumbers(rows[..|rows| - 1]) + (if n != "" then [n] else [])
  }

  /** The second loop: one message for each non-empty number already seen in
      an earlier row, whether or not that row has a name. */
  function DuplicateErrors(rows: seq<Entry>): (errs: seq<ValidationError>)
    ensures forall k :: 0 <= k < |errs| ==> errs[k].DuplicateNumber?
    decreases |rows|
  {
    if rows == [] then []
    else
      var init := rows[..|rows| - 1];
      var n := rows[|rows| - 1].number;
      DuplicateErrors(init) + (if n != "" && n in SeenNumbers(init) then [DuplicateNumber(n)] else [])
  }

  /** The second loop, one row further: a message for the new row's number
      exactly when it is non-empty and an earlier row carries it, after the
      messages for the earlier rows. So duplicate messages follow row order,
      one for each repeat. */
  lemma DuplicateErrorsSnoc(rows: seq<Entry>, e: Entry)
    ensures DuplicateErrors(rows + [e]) == DuplicateErrors(rows)
      + (if e.number != "" && Occurrences(rows, e.number) > 0 then [DuplicateNumber(e.number)] else [])
  {
    assert (rows + [e])[..|rows|] == rows;
    if e.number != "" {
      SeenIff(rows, e.number);
    }
  }

  /** How many rows carry the number `n`. */
  function Occurrences(rows: seq<Entry>, n: string): nat
    decreases |rows|
  {
    if rows == [] then 0
    else Occurrences(rows[..|rows| - 1], n) + (if rows[|rows| - 1].number == n then 1 else 0)
  }

  /** A seen number is carried by some row. */
  lemma {:induction false} SeenOccurs(rows: seq<Entry>, n: string)
    requires n in SeenNumbers(rows)
    ensures Occurrences(rows, n) >= 1
    decreases |rows|
  {
    var init := rows[..|rows| - 1];
    if rows[|rows| - 1].number != n {
      SeenOccurs(init, n);
    }
  }

  /** How many messages report the number `n` as a duplicate. */
  function CountMsg(errs: seq<ValidationError>, n: string): nat
    decreases |errs|
  {
    if errs == [] then 0
    else CountMsg(errs[..|errs| - 1], n) + (if errs[|errs| - 1] == DuplicateNumber(n) then 1 else 0)
  }

  /** A non-empty number is in the seen list exactly when some row carries it. */
  lemma {:induction false} SeenIff(rows: seq<Entry>, n: string)
    requires n != ""
    ensures n in SeenNumbers(rows) <==> Occurrences(rows, n) > 0
    decreases |rows|
  {
    if rows != [] {
      SeenIff(rows[..|rows| - 1], n);
    }
  }

  /** The second loop reports a number once for each row carrying it after
      the first: every occurrence but the first gives one message. */
  lemma {:induction false} DuplicatesPerNumber(rows: seq<Entry>, n: string)
    requires n != ""
    ensures CountMsg(DuplicateErrors(rows), n) + (if Occurrences(rows, n) > 0 then 1 else 0)
         == Occurrences(rows, n)
    decreases |rows|
  {
    if rows != [] {
      var init := rows[..|rows| - 1];
      var m := rows[|rows| - 1].number;
      DuplicatesPerNumber(init, n);
      var prev := DuplicateErrors(init);
      if m != "" && m in SeenNumbers(init) {
        assert (prev + [DuplicateNumber(m)])[..|prev|] == prev;
        assert DuplicateErrors(rows) == prev + [DuplicateNumber(m)];
      } else {
        assert DuplicateErrors(rows) == prev + [];
        assert prev + [] == prev;
      }
      if m == n {
        SeenIff(init, n);
      }
    }
  }

  /** Every duplicate message names a number that at least two rows carry. */
  lemma {:induction false} DuplicateErrorsRepeat(rows: seq<Entry>)
    ensures forall k :: 0 <= k < |DuplicateErrors(rows)| ==>
      Occurrences(rows, DuplicateErrors(rows)[k].number) >= 2
    decreases |rows|
  {
    if rows != [] {
      var init := rows[..|rows| - 1];
      var n := rows[|rows| - 1].number;
      DuplicateErrorsRepeat(init);
      var prev := DuplicateErrors(init);
      var errs := DuplicateErrors(rows);
      forall k | 0 <= k < |errs| ensures Occurrences(rows, errs[k].number) >= 2 {
        var m := errs[k].number;
        assert Occurrences(rows, m) >= Occurrences(init, m);
        if k < |prev| {
          assert errs[k] == prev[k];
          assert Occurrences(init, prev[k].number) >= 2;
        } else {
          assert n != "" && n in SeenNumbers(init) && errs[k] == DuplicateNumber(n);
          SeenOccurs(init, n);
          assert Occurrences(rows, n) == Occurrences(init, n) + 1;
        }
      }
    }
  }

  /** No two rows share a non-empty number. */
  predicate DistinctNumbers(rows: seq<Entry>) {
    forall i, j :: 0 <= i < j < |rows| && rows[i].number != "" ==> rows[i].number != rows[j].number
  }

  /** A number has been seen exactly when some row carries it; the
      existential form `DuplicateErrorsEmpty` needs. */
  lemma {:induction false} SeenMembership(rows: seq<Entry>, n: string)
    requires n != ""
    ensures n in SeenNumbers(rows) <==> exists i :: 0 <= i < |rows| && rows[i].number == n
    decreases |rows|
  {
    if rows != [] {
      var init := rows[..|rows| - 1];
      SeenMembership(init, n);
      assert forall i :: 0 <= i < |init| ==> init[i] == rows[i];
    }
  }

  /** The numbers stay distinct after one more row exactly when they were
      distinct before and the new row's number is empty or new. */
  lemma DistinctSnoc(rows: seq<Entry>)
    requires rows != []
    ensures var init := rows[..|rows| - 1]; var n := rows[|rows| - 1].number;
      DistinctNumbers(rows) <==>
        DistinctNumbers(init) && (n == "" || forall i :: 0 <= i < |init| ==> init[i].number != n)
  {
    var init := rows[..|rows| - 1];
    assert forall i :: 0 <= i < |init| ==> init[i] == rows[i];
  }

  /** The second loop reports nothing exactly when the non-empty numbers are distinct. */
  lemma {:induction false} DuplicateErrorsEmpty(rows: seq<Entry>)
    ensures DuplicateErrors(rows) == [] <==> DistinctNumbers(rows)
    decreases |rows|
  {
    if rows != [] {
      var init := rows[..|rows| - 1];
      var last := |rows| - 1;
      var n := rows[last].number;
      DuplicateErrorsEmpty(init);
      DistinctSnoc(rows);
      if n != "" {
        SeenMembership(init, n);
      }
    }
  }

  /** Each surplus occurrence of a number gives one message: the count of
      messages is the count of non-empty numbers minus the count of distinct
      ones. */
  lemma {:induction false} DuplicateErrorsCount(rows: seq<Entry>)
    ensures |DuplicateErrors(rows)| + |set x | x in SeenNumbers(rows)| == |SeenNumbers(rows)|
    decreases |rows|
  {
    if rows != [] {
      var init := rows[..|rows| - 1];
      var n := rows[|rows| - 1].number;
      DuplicateErrorsCount(init);
      var before := set x | x in SeenNumbers(init);
      if n != "" {
        assert (set x | x in SeenNumbers(rows)) == before + {n};
        if n !in SeenNumbers(init) {
          assert n !in before;
        } else {
          assert before + {n} == before;
        }
      } else {
        assert SeenNumbers(rows) == SeenNumbers(init);
      }
    }
  }

  /** `validate_inputs`: the per-row messages, then the duplicate messages.
      Validation passes exactly when every row is blank or has an all-digit
      number and a valid name, and no non-empty number repeats; a message
      about a row names an invalid row, and one about a number names a
      number at least two rows carry. Row messages come first, row by row
      and number before name, each once. */
  function Validate(rows: seq<Entry>): (errs: seq<ValidationError>)
    ensures errs == [] <==>
      (forall i :: 0 <= i < |rows| ==> RowValid(rows[i])) && DistinctNumbers(rows)
    ensures forall k :: 0 <= k < |errs| && !errs[k].DuplicateNumber? ==>
      errs[k].index < |rows| && !RowValid(rows[errs[k].index])
    ensures forall k :: 0 <= k < |errs| && errs[k].DuplicateNumber? ==>
      Occurrences(rows, errs[k].number) >= 2
    ensures forall j, k :: 0 <= j < k < |errs| && errs[j].DuplicateNumber? ==> errs[k].DuplicateNumber?
    ensures forall j, k :: 0 <= j < k < |errs| && !errs[k].DuplicateNumber? ==> Slot(errs[j]) < Slot(errs[k])
  {
    PerRowErrorsEmpty(rows);
    PerRowErrorsOrdered(rows);
    DuplicateErrorsEmpty(rows);
    PerRowErrorsAboutRows(rows);
    DuplicateErrorsRepeat(rows);
    MessagesInOrder(rows, PerRowErrors(rows), DuplicateErrors(rows));
    PerRowErrors(rows) + DuplicateErrors(rows)
  }

  /** Which message each row gets: an empty number is "required" and a
      non-digit one "not numeric", an empty name is "required" and a bad one
      "invalid", all only for a row that is not blank. Every row is checked,
      so every invalid row is reported. */
  lemma ValidateRowMessages(rows: seq<Entry>, i: nat)
    requires i < |rows|
    ensures NumberRequired(i) in Validate(rows) <==> rows[i].number == "" && rows[i].name != ""
    ensures NumberNotNumeric(i) in Validate(rows) <==> rows[i].number != "" && !IsDigits(rows[i].number)
    ensures NameRequired(i) in Validate(rows) <==> rows[i].name == "" && rows[i].number != ""
    ensures NameInvalid(i) in Validate(rows) <==> rows[i].name != "" && !ValidName(rows[i].name)
  {
    RowMessageIn(rows, i, NumberRequired(i));
    RowMessageIn(rows, i, NumberNotNumeric(i));
    RowMessageIn(rows, i, NameRequired(i));
    RowMessageIn(rows, i, NameInvalid(i));
  }

  /** A message about row `i` is among the validation messages exactly when
      it is among that row's own messages. */
  lemma RowMessageIn(rows: seq<Entry>, i: nat, e: ValidationError)
    requires i < |rows| && AboutRow(e, i)
    ensures e in Validate(rows) <==> e in RowErrors(i, rows[i])
  {
    var each := seq(|rows|, k requires 0 <= k < |rows| => RowErrors(k, rows[k]));
    assert PerRowErrors(rows) == Flatten(each);
    NotDuplicate(rows, e);
    if e in each[i] {
      FlattenIn(each, i, e);
    }
    if e in Flatten(each) {
      FlattenMember(each, e);
      var k :| 0 <= k < |each| && e in each[k];
      RowMessageIndex(k, rows[k], e);
    }
  }

  /** A message about a row is not a duplicate message. */
  lemma NotDuplicate(rows: seq<Entry>, e: ValidationError)
    requires !e.DuplicateNumber?
    ensures e !in DuplicateErrors(rows)
  {
  }

  /** A message of row `k` is about row `k`. */
  lemma RowMessageIndex(k: nat, entry: Entry, e: ValidationError)
    requires e in RowErrors(k, entry)
    ensures !e.DuplicateNumber? && e.index == k
  {
    var j :| 0 <= j < |RowErrors(k, entry)| && RowErrors(k, entry)[j] == e;
  }

  /** Row messages followed by number messages keep what each part says. */
  lemma MessagesInOrder(rows: seq<Entry>, first: seq<ValidationError>, dups: seq<ValidationError>)
    requires forall k :: 0 <= k < |first| ==>
      !first[k].DuplicateNumber? && first[k].index < |rows| && !RowValid(rows[first[k].index])
    requires InSlotOrder(first)
    requires forall k :: 0 <= k < |dups| ==>
      dups[k].DuplicateNumber? && Occurrences(rows, dups[k].number) >= 2
    ensures var errs := first + dups;
      forall k :: 0 <= k < |errs| && !errs[k].DuplicateNumber? ==>
        errs[k].index < |rows| && !RowValid(rows[errs[k].index])
    ensures var errs := first + dups;
      forall k :: 0 <= k < |errs| && errs[k].DuplicateNumber? ==>
        Occurrences(rows, errs[k].number) >= 2
    ensures var errs := first + dups;
      forall j, k :: 0 <= j < k < |errs| && errs[j].DuplicateNumber? ==> errs[k].DuplicateNumber?
    ensures var errs := first + dups;
      forall j, k :: 0 <= j < k < |errs| && !errs[k].DuplicateNumber? ==> Slot(errs[j]) < Slot(errs[k])
  {
    var errs := first + dups;
    assert forall k :: 0 <= k < |first| ==> errs[k] == first[k];
    assert forall k :: |first| <= k < |errs| ==> errs[k] == dups[k - |first|];
  }

  // ---------------------------------------------------------------------------
  // generate_actuators
  // ---------------------------------------------------------------------------

  /** What pressing "Generate" leads to: the error dialog, the generation
      error dialog, the "enter at least one actuator" warning, or a result
      handed back to the caller. */
  datatype Outcome =
    | Rejected(errors: seq<ValidationError>)
    | Failed(error: GenerateError)
    | NothingEntered
    | Generated(batch: seq<Instance>)

  /** `generate_actuators`: validation first; only if it reports nothing are
      the instances generated, and only a non-empty batch becomes the result.
      Generation cannot fail once validation has passed. */
  method GenerateActuators(rows: seq<InputRow>, template: seq<Record>) returns (o: Outcome)
    ensures o.Rejected? <==> Validate(ReadAll(rows)) != []
    ensures o.Rejected? ==> o.errors == Validate(ReadAll(rows))
    ensures !o.Failed?
    ensures var entries := ReadAll(rows);
      o.Generated? <==>
        Validate(entries) == [] && exists i :: 0 <= i < |entries| && Complete(entries[i])
    ensures o.Generated? ==> o.batch == Completed(ReadAll(rows), template) && |o.batch| > 0
  {
    var entries := ReadAll(rows);
    var errors := Validate(entries);
    if errors != [] {
      return Rejected(errors);
    }
    assert forall i :: 0 <= i < |entries| && Complete(entries[i]) ==> IsDigits(entries[i].number) by {
      forall i | 0 <= i < |entries| && Complete(entries[i]) ensures IsDigits(entries[i].number) {
        assert RowValid(entries[i]);
      }
    }
    var data := GetGeneratedData(rows, template);
    CompletedEmpty(entries, template);
    match data {
      case Failure(e) =>
        assert false;
        return Failed(e);
      case Success(batch) =>
        if batch == [] {
          return NothingEntered;
        }
        return Generated(batch);
    }
  }
}

=== FILE: clipboard.dfy ===
/**
  The tab-separated text `copy_to_clipboard` builds from the expanded rows:
  each row's cells joined by a tab, each row ended by a line feed.
 */
module Clipboard {
  import opened Text
  import opened Schema
  import opened ExcelRows

  /** One row as a line of text, without its terminator. */
  function Line(row: seq<string>): string {
    Join(row, "\t")
  }

  /** The clipboard text for `rows`, in row order. */
  function ClipboardText(rows: seq<seq<string>>): string
    decreases |rows|
  {
    if rows == [] then "" else Line(rows[0]) + "\n" + ClipboardText(rows[1..])
  }

  /** Appending a row appends its line and a line feed. */
  lemma {:induction false} ClipboardAppend(rows: seq<seq<string>>, row: seq<string>)
    ensures ClipboardText(rows + [row]) == ClipboardText(rows) + Line(row) + "\n"
    decreases |rows|
  {
    if rows == [] {
      assert [row][1..] == [];
    } else {
      assert (rows + [row])[1..] == rows[1..] + [row];
      ClipboardAppend(rows[1..], row);
    }
  }

  /** The loop of `copy_to_clipboard` over the rows of a batch: returns the
      text handed to the clipboard and the row count its message reports. */
  method CopyText(batch: seq<Instance>) returns (text: string, count: nat)
    ensures text == ClipboardText(GenerateRows(batch))
    ensures count == TotalRecords(batch)
  {
    var rows := GenerateRows(batch);
    text := JoinLines(rows);
    count := |rows|;
  }

  /** The text the loop accumulates: each row's line and a line feed, in order. */
  method JoinLines(rows: seq<seq<string>>) returns (text: string)
    ensures text == ClipboardText(rows)
  {
    text := "";
    var i := 0;
    while i < |rows|
      invariant 0 <= i <= |rows|
      invariant text == ClipboardText(rows[..i])
    {
      ClipboardAppend(rows[..i], rows[i]);
      assert rows[..i + 1] == rows[..i] + [rows[i]];
      text := text + Line(rows[i]) + "\n";
      i := i + 1;
    }
    assert rows[..i] == rows;
  }

  /** Reads clipboard text back: one row per line feed, cells split at tabs. */
  function ParseClipboard(text: string): (rows: seq<seq<string>>)
  {
    var lines := Split(text, '\n');
    seq(|lines| - 1, i requires 0 <= i < |lines| - 1 => Split(lines[i], '\t'))
  }

  /** A cell that survives the tab-separated format: no tab, no line feed. */
  predicate PlainCell(cell: string) {
    '\t' !in cell && '\n' !in cell
  }

  /** A row with at least one cell, every cell plain. */
  predicate PlainRow(row: seq<string>) {
    |row| > 0 && forall k :: 0 <= k < |row| ==> PlainCell(row[k])
  }

  predicate PlainRows(rows: seq<seq<string>>) {
    forall j :: 0 <= j < |rows| ==> PlainRow(rows[j])
  }

  /** A plain row's line holds no line feed. */
  lemma PlainLine(row: seq<string>)
    requires PlainRow(row)
    ensures Split(Line(row), '\n') == [Line(row)]
  {
    JoinFree(row, "\t", '\n');
    SplitNone(Line(row), '\n');
  }

  /** The line of each row, in row order. */
  function Lines(rows: seq<seq<string>>): seq<string> {
    seq(|rows|, j requires 0 <= j < |rows| => Line(rows[j]))
  }

  /** The lines of the clipboard text are the rows' lines, then the empty
      piece after the last line feed. */
  lemma {:induction false} SplitLines(rows: seq<seq<string>>)
    requires PlainRows(rows)
    ensures Split(ClipboardText(rows), '\n') == Lines(rows) + [""]
    decreases |rows|
  {
    if rows != [] {
      var line := Line(rows[0]);
      var rest := rows[1..];
      calc {
        Split(ClipboardText(rows), '\n');
      ==
        Split(line + ['\n'] + ClipboardText(rest), '\n');
      == { SplitAround(line, '\n', ClipboardText(rest)); }
        Split(line, '\n') + Split(ClipboardText(rest), '\n');
      == { PlainLine(rows[0]); assert PlainRows(rest); SplitLines(rest); }
        [line] + (Lines(rest) + [""]);
      == { assert Lines(rows) == [line] + Lines(rest); }
        Lines(rows) + [""];
      }
    }
  }

  /** Pasting the clipboard text back recovers the rows exactly, provided no
      cell holds a tab or a line feed. */
  lemma ClipboardRoundTrip(rows: seq<seq<string>>)
    requires PlainRows(rows)
    ensures ParseClipboard(ClipboardText(rows)) == rows
  {
    SplitLines(rows);
    var parsed := ParseClipboard(ClipboardText(rows));
    assert |parsed| == |rows|;
    forall j | 0 <= j < |rows| ensures parsed[j] == rows[j] {
      SplitJoin(rows[j], '\t');
    }
  }

  /** A multi-line cell (the editor's cause and action fields accept line
      breaks) does not survive: the pasted text has one more row. */
  lemma MultilineCellSplitsRow()
    ensures ParseClipboard(ClipboardText([["a\nb"]])) == [["a"], ["b"]]
  {
    var text := ClipboardText([["a\nb"]]);
    assert Line(["a\nb"]) == "a\nb";
    assert text == "a" + ['\n'] + ("b" + ['\n'] + "");
    SplitAround("a", '\n', "b\n");
    SplitAround("b", '\n', "");
    SplitNone("a", '\n');
    SplitNone("b", '\n');
    SplitNone("", '\n');
    assert Split(text, '\n') == ["a", "b", ""];
    SplitNone("a", '\t');
    SplitNone("b", '\t');
    var parsed := ParseClipboard(text);
    assert |parsed| == 2 && parsed[0] == ["a"] && parsed[1] == ["b"];
  }
}

=== FILE: excel_rows.dfy ===
/**
  The row expander: every record of a template, instantiated for one actuator
  number and name, becomes a flat 25-cell spreadsheet row. A batch of
  instances expands in batch order, then record order within an instance.
 */
module ExcelRows {
  import opened Text
  import opened Schema
  import opened Seqs

  /** The spreadsheet header row: the actuator column, then one column per
      schema field. */
  const ColumnHeaders: seq<string> := [
    "Actuator", "Name", "Index", "DataType", "Prefix", "Output", "Out.Descr.",
    "Input", "Inp.Descr.", "Alm 0", "Alm 1", "Alm 0 Descr. Language1",
    "Alm 0 Descr. Language2", "Alm 0 Descr. Language3", "Alm 1 Descr.Language1",
    "Alm 1 Descr.Language2", "Alm 1 Descr.Language3", "Alm0 Procedure",
    "Alm1 Procedure", "Alm0 BAD", "Alm1 BAD", "Alm0 Cause", "Alm1 Cause",
    "Alm0 Action", "Alm1 Action"
  ]

  /** The marker a template puts where the actuator name belongs. */
  const Placeholder: string := "{ActuatorName}"

  /** The schema positions whose text gets the placeholder substituted;
      every other field is copied as stored. */
  const SubstitutedPositions: set<int> := {0, 6, 7, 10, 11, 12, 13, 14, 15}

  /** The substituted positions are the name, the input and its description,
      and the six alarm descriptions; the others are the index, data type,
      prefix, output and its description, both alarm ids, procedures, BAD
      flags, causes and actions. */
  lemma SubstitutedFields()
    ensures [Keys[0], Keys[6], Keys[7], Keys[10], Keys[11], Keys[12], Keys[13], Keys[14], Keys[15]]
         == ["name", "input", "inp_descr", "alm0_descr_lang1", "alm0_descr_lang2",
             "alm0_descr_lang3", "alm1_descr_lang1", "alm1_descr_lang2", "alm1_descr_lang3"]
    ensures [Keys[1], Keys[2], Keys[3], Keys[4], Keys[5], Keys[8], Keys[9], Keys[16],
             Keys[17], Keys[18], Keys[19], Keys[20], Keys[21], Keys[22], Keys[23]]
         == ["index", "datatype", "prefix", "output", "out_descr", "alm0", "alm1",
             "alm0_procedure", "alm1_procedure", "alm0_bad", "alm1_bad", "alm0_cause",
             "alm1_cause", "alm0_action", "alm1_action"]
  {
  }

  /** The header row is the actuator column followed by the editor's field
      headings, so column `i + 1` holds field `Keys[i]`. */
  lemma HeadersFollowSchema()
    ensures |ColumnHeaders| == 1 + |Keys|
    ensures ColumnHeaders[0] == "Actuator"
    ensures ColumnHeaders[1..] == Headings
  {
  }

  /** Replaces every `{ActuatorName}` in `text` by `name`; empty text is
      returned as it is. */
  function ReplacePlaceholders(text: string, name: string): (r: string)
    ensures text == "" ==> r == ""
    ensures !Contains(text, Placeholder) ==> r == text
    ensures name == Placeholder ==> r == text
  {
    if text == "" then
      assert !Contains(text, Placeholder);
      text
    else
      ReplaceAll(text, Placeholder, name)
  }

  /** Each placeholder replaced changes the length by `|name| - 14`. */
  lemma PlaceholderLength(text: string, name: string)
    ensures |ReplacePlaceholders(text, name)|
         == |text| + CountOccurrences(text, Placeholder) * (|name| - |Placeholder|)
  {
    if text != "" {
      ReplaceLength(text, Placeholder, name);
    }
  }

  /** The placeholder opens with `{`, which appears nowhere else in it, so
      two placeholders never overlap. */
  lemma PlaceholderUniqueHead()
    ensures UniqueHead(Placeholder)
  {
  }

  /** Placeholder-free text, a placeholder, then anything: the text is kept,
      the placeholder becomes the name, and the rest is expanded in turn.
      With `x` empty this is a value starting with the placeholder. */
  lemma ExpandPlaceholderAfter(x: string, y: string, name: string)
    requires !Contains(x, Placeholder)
    ensures ReplacePlaceholders(x + Placeholder + y, name) == x + name + ReplacePlaceholders(y, name)
  {
    PlaceholderUniqueHead();
    ReplaceAfterPlain(x, Placeholder, name, y);
  }

  /** A value made of placeholder-free pieces separated by placeholders
      expands to the same pieces separated by the name: every placeholder
      is replaced and nothing else changes. */
  lemma ExpandEvery(pieces: seq<string>, name: string)
    requires |pieces| >= 1
    requires forall k :: 0 <= k < |pieces| ==> !Contains(pieces[k], Placeholder)
    ensures ReplacePlaceholders(Join(pieces, Placeholder), name) == Join(pieces, name)
  {
    PlaceholderUniqueHead();
    ReplaceJoined(pieces, Placeholder, name);
  }

  /** The cell for schema position `i` of `rec` instantiated with `name`:
      the stored text, absent keys read as empty, with the placeholder
      substituted at the substituted positions only. */
  function Cell(rec: Record, i: int, name: string): (c: string)
    requires 0 <= i < |Keys|
    ensures i in SubstitutedPositions ==> c == ReplacePlaceholders(Get(rec, Keys[i]), name)
    ensures i !in SubstitutedPositions ==> c == Get(rec, Keys[i])
    ensures !Contains(Get(rec, Keys[i]), Placeholder) ==> c == Get(rec, Keys[i])
    ensures Keys[i] !in rec ==> c == ""
    ensures name == Placeholder ==> c == Get(rec, Keys[i])
  {
    if i in SubstitutedPositions then ReplacePlaceholders(Get(rec, Keys[i]), name)
    else Get(rec, Keys[i])
  }

  /** `_process_actuator_row`: the actuator cell `_<number>`, then one cell per
      schema field in schema order. A field is copied as stored unless it is
      one of the nine substituted ones and holds the placeholder; a key the
      record lacks gives an empty cell. */
  function ProcessRow(rec: Record, number: string, name: string): (row: seq<string>)
    ensures |row| == |ColumnHeaders|
    ensures row[0] == "_" + number
    ensures forall i :: 0 <= i < |Keys| ==>
      row[i + 1] == if i in SubstitutedPositions then ReplacePlaceholders(Get(rec, Keys[i]), name) else Get(rec, Keys[i])
  {
    var cells := seq(|Keys|, i requires 0 <= i < |Keys| => Cell(rec, i, name));
    var row := ["_" + number] + cells;
    assert forall i :: 0 <= i < |Keys| ==> row[i + 1] == Cell(rec, i, name);
    row
  }

  /** Cells that hold no placeholder are copied as stored, a key the record
      lacks gives an empty cell, and instantiating with the placeholder
      itself changes nothing. */
  lemma ProcessRowPlainCells(rec: Record, number: string, name: string)
    ensures var row := ProcessRow(rec, number, name);
      forall i :: 0 <= i < |Keys| && !Contains(Get(rec, Keys[i]), Placeholder) ==> row[i + 1] == Get(rec, Keys[i])
    ensures var row := ProcessRow(rec, number, name);
      forall i :: 0 <= i < |Keys| && Keys[i] !in rec ==> row[i + 1] == ""
    ensures name == Placeholder ==> var row := ProcessRow(rec, number, name);
      forall i :: 0 <= i < |Keys| ==> row[i + 1] == Get(rec, Keys[i])
  {
  }

  /** A record whose name is `{ActuatorName}_Foo`, instantiated for actuator
      30 named `AxisZ`, gives a row starting `_30`, `AxisZ_Foo`. */
  lemma ProcessRowExample()
    ensures var row := ProcessRow(map["name" := "{ActuatorName}_Foo"], "30", "AxisZ");
      row[0] == "_30" && row[1] == "AxisZ_Foo"
  {
    var rec := map["name" := "{ActuatorName}_Foo"];
    NameCell(rec, "30", "AxisZ");
    ExampleName();
  }

  /** The first field column holds the record's name with the placeholder
      substituted. */
  lemma NameCell(rec: Record, number: string, name: string)
    ensures ProcessRow(rec, number, name)[1] == ReplacePlaceholders(Get(rec, "name"), name)
  {
    assert Keys[0] == "name";
    assert 0 in SubstitutedPositions;
  }

  /** The example's name expands its one placeholder. */
  lemma ExampleName()
    ensures ReplacePlaceholders("{ActuatorName}_Foo", "AxisZ") == "AxisZ_Foo"
  {
    assert "{ActuatorName}_Foo" == "" + Placeholder + "_Foo";
    assert !Contains("_Foo", Placeholder);
    ExpandPlaceholderAfter("", "_Foo", "AxisZ");
  }

  /** All rows of one instance, in record order. */
  function InstanceRows(inst: Instance): seq<seq<string>> {
    seq(|inst.records|, i requires 0 <= i < |inst.records| =>
      ProcessRow(inst.records[i], inst.number, inst.name))
  }

  /** Number of records over the whole batch. */
  function TotalRecords(batch: seq<Instance>): nat
    decreases |batch|
  {
    if batch == [] then 0
    else TotalRecords(batch[..|batch| - 1]) + |batch[|batch| - 1].records|
  }

  /** Each instance's rows, in batch order: what the outer loop of
      `generate_excel_rows` appends on each pass. */
  function RowsPerInstance(batch: seq<Instance>): seq<seq<seq<string>>> {
    seq(|batch|, k requires 0 <= k < |batch| => InstanceRows(batch[k]))
  }

  /** Every instance contributes one row per record. */
  lemma {:induction false} RowsPerRecord(batch: seq<Instance>)
    ensures SumLengths(RowsPerInstance(batch)) == TotalRecords(batch)
    decreases |batch|
  {
    if batch != [] {
      var init := batch[..|batch| - 1];
      RowsPerRecord(init);
      assert RowsPerInstance(batch)[..|batch| - 1] == RowsPerInstance(init);
    }
  }

  /** `generate_excel_rows`: every instance's rows, instance after instance. */
  function GenerateRows(batch: seq<Instance>): (rows: seq<seq<string>>)
    ensures |rows| == TotalRecords(batch)
  {
    FlattenLength(RowsPerInstance(batch));
    RowsPerRecord(batch);
    Flatten(RowsPerInstance(batch))
  }

  /** Row `i` of instance `k` is the `TotalRecords(batch[..k]) + i`-th row of
      the batch, where the offset counts the records of the instances before
      `k`: rows are ordered by instance, then by record, and each row starts
      with its own instance's number. */
  lemma RowsInOrder(batch: seq<Instance>, k: nat, i: nat)
    requires k < |batch| && i < |batch[k].records|
    ensures TotalRecords(batch[..k]) + i < |GenerateRows(batch)|
    ensures GenerateRows(batch)[TotalRecords(batch[..k]) + i]
         == ProcessRow(batch[k].records[i], batch[k].number, batch[k].name)
    ensures GenerateRows(batch)[TotalRecords(batch[..k]) + i][0] == "_" + batch[k].number
  {
    var each := RowsPerInstance(batch);
    FlattenAt(each, k, i);
    assert each[..k] == RowsPerInstance(batch[..k]);
    RowsPerRecord(batch[..k]);
  }

  /** Every generated row has one cell per column header. */
  lemma RowsHaveWidth(batch: seq<Instance>)
    ensures forall row :: row in GenerateRows(batch) ==> |row| == |ColumnHeaders|
  {
    forall row | row in GenerateRows(batch) ensures |row| == |ColumnHeaders| {
      FlattenMember(RowsPerInstance(batch), row);
    }
  }

  /** Expanding two batches one after the other gives the rows of both, in order. */
  lemma GenerateConcat(a: seq<Instance>, b: seq<Instance>)
    ensures GenerateRows(a + b) == GenerateRows(a) + GenerateRows(b)
  {
    assert RowsPerInstance(a + b) == RowsPerInstance(a) + RowsPerInstance(b);
    FlattenAppend(RowsPerInstance(a), RowsPerInstance(b));
  }
}

=== FILE: schema.dfy ===
/**
  The actuator record schema shared by the template editor and the row
  expander: 24 field keys in a fixed order, each with the heading the editor
  shows and the spreadsheet uses as its column header.
 */
module Schema {

  /** The record keys, in editor and spreadsheet order. */
  const Keys: seq<string> := [
    "name", "index", "datatype", "prefix", "output", "out_descr",
    "input", "inp_descr", "alm0", "alm1",
    "alm0_descr_lang1", "alm0_descr_lang2", "alm0_descr_lang3",
    "alm1_descr_lang1", "alm1_descr_lang2", "alm1_descr_lang3",
    "alm0_procedure", "alm1_procedure", "alm0_bad", "alm1_bad",
    "alm0_cause", "alm1_cause", "alm0_action", "alm1_action"
  ]

  /** The heading the editor shows beside each key, position for position. */
  const Headings: seq<string> := [
    "Name", "Index", "DataType", "Prefix", "Output", "Out.Descr.",
    "Input", "Inp.Descr.", "Alm 0", "Alm 1",
    "Alm 0 Descr. Language1", "Alm 0 Descr. Language2", "Alm 0 Descr. Language3",
    "Alm 1 Descr.Language1", "Alm 1 Descr.Language2", "Alm 1 Descr.Language3",
    "Alm0 Procedure", "Alm1 Procedure", "Alm0 BAD", "Alm1 BAD",
    "Alm0 Cause", "Alm1 Cause", "Alm0 Action", "Alm1 Action"
  ]

  const FieldCount: nat := 24

  /** An actuator record: field key to text. Records read from a stored
      template may lack keys or carry extra ones. */
  type Record = map<string, string>

  /** `record.get(key, '')` */
  function Get(r: Record, key: string): string {
    if key in r then r[key] else ""
  }

  /** A key of the schema: the position it sits at in `Keys`. */
  function KeyPosition(key: string): (i: int)
  {
    if key == "name" then 0
    else if key == "index" then 1
    else if key == "datatype" then 2
    else if key == "prefix" then 3
    else if key == "output" then 4
    else if key == "out_descr" then 5
    else if key == "input" then 6
    else if key == "inp_descr" then 7
    else if key == "alm0" then 8
    else if key == "alm1" then 9
    else if key == "alm0_descr_lang1" then 10
    else if key == "alm0_descr_lang2" then 11
    else if key == "alm0_descr_lang3" then 12
    else if key == "alm1_descr_lang1" then 13
    else if key == "alm1_descr_lang2" then 14
    else if key == "alm1_descr_lang3" then 15
    else if key == "alm0_procedure" then 16
    else if key == "alm1_procedure" then 17
    else if key == "alm0_bad" then 18
    else if key == "alm1_bad" then 19
    else if key == "alm0_cause" then 20
    else if key == "alm1_cause" then 21
    else if key == "alm0_action" then 22
    else if key == "alm1_action" then 23
    else -1
  }

  /** Every key names its own position, so no key appears twice in the
      schema: the editor's per-field widgets and the record keys correspond
      one to one. */
  lemma KeysDistinct()
    ensures |Keys| == |Headings| == FieldCount
    ensures forall i :: 0 <= i < |Keys| ==> KeyPosition(Keys[i]) == i
    ensures forall i, j :: 0 <= i < j < |Keys| ==> Keys[i] != Keys[j]
  {
  }

  /** The record `add_actuator` creates: every schema key, every value empty. */
  function EmptyRecord(): (r: Record)
    ensures forall k :: k in r <==> k in Keys
    ensures forall i :: 0 <= i < |Keys| ==> Get(r, Keys[i]) == ""
    ensures forall k :: k in r ==> r[k] == ""
  {
    map k | k in Keys :: ""
  }

  /** One instance of a template: the actuator number and name the user typed
      and the template's records, as `get_generated_data` hands them to the
      row expander. */
  datatype Instance = Instance(number: string, name: string, records: seq<Record>)
}

=== FILE: seqs.dfy ===
/**
  Lists of lists laid end to end, as both the row expander and the input
  validator build them: an outer loop appending each inner list in turn.
 */
module Seqs {

  /** The lists one after the other. */
  function Flatten<T>(xss: seq<seq<T>>): seq<T>
    decreases |xss|
  {
    if xss == [] then [] else Flatten(xss[..|xss| - 1]) + xss[|xss| - 1]
  }

  /** Total length of the lists. */
  function SumLengths<T>(xss: seq<seq<T>>): nat
    decreases |xss|
  {
    if xss == [] then 0 else SumLengths(xss[..|xss| - 1]) + |xss[|xss| - 1]|
  }

  /** The flattened list is as long as the lists together. */
  lemma {:induction false} FlattenLength<T>(xss: seq<seq<T>>)
    ensures |Flatten(xss)| == SumLengths(xss)
    decreases |xss|
  {
    if xss != [] {
      FlattenLength(xss[..|xss| - 1]);
    }
  }

  /** Element `i` of list `k` sits after all elements of the lists before `k`. */
  lemma {:induction false} FlattenAt<T>(xss: seq<seq<T>>, k: nat, i: nat)
    requires k < |xss| && i < |xss[k]|
    ensures SumLengths(xss[..k]) + i < |Flatten(xss)|
    ensures Flatten(xss)[SumLengths(xss[..k]) + i] == xss[k][i]
    decreases |xss|
  {
    var init := xss[..|xss| - 1];
    FlattenLength(xss);
    FlattenLength(init);
    if k == |xss| - 1 {
      assert xss[..k] == init;
    } else {
      FlattenAt(init, k, i);
      assert init[..k] == xss[..k];
    }
  }

  /** Flattening two runs of lists gives the first run's elements, then the second's. */
  lemma {:induction false} FlattenAppend<T>(xss: seq<seq<T>>, yss: seq<seq<T>>)
    ensures Flatten(xss + yss) == Flatten(xss) + Flatten(yss)
    decreases |yss|
  {
    if yss == [] {
      assert xss + yss == xss;
    } else {
      var init := yss[..|yss| - 1];
      assert (xss + yss)[..|xss + yss| - 1] == xss + init;
      FlattenAppend(xss, init);
    }
  }

  /** Every element of the flattened list comes from one of the lists. */
  lemma {:induction false} FlattenMember<T>(xss: seq<seq<T>>, x: T)
    requires x in Flatten(xss)
    ensures exists k :: 0 <= k < |xss| && x in xss[k]
    decreases |xss|
  {
    var init := xss[..|xss| - 1];
    if x !in xss[|xss| - 1] {
      FlattenMember(init, x);
      var k :| 0 <= k < |init| && x in init[k];
      assert xss[k] == init[k];
    }
  }

  /** Every element of each list is an element of the flattened list. */
  lemma FlattenIn<T>(xss: seq<seq<T>>, k: nat, x: T)
    requires k < |xss| && x in xss[k]
    ensures x in Flatten(xss)
  {
    var i :| 0 <= i < |xss[k]| && xss[k][i] == x;
    FlattenAt(xss, k, i);
  }

  /** The flattened lists are empty exactly when each of them is. */
  lemma {:induction false} FlattenEmpty<T>(xss: seq<seq<T>>)
    ensures Flatten(xss) == [] <==> forall i :: 0 <= i < |xss| ==> xss[i] == []
    decreases |xss|
  {
    if xss != [] {
      var init := xss[..|xss| - 1];
      FlattenEmpty(init);
      assert |Flatten(init) + xss[|xss| - 1]| == |Flatten(init)| + |xss[|xss| - 1]|;
      assert forall i :: 0 <= i < |init| ==> init[i] == xss[i];
    }
  }

  /** Exchanging two positions keeps the same elements, as many times each. */
  lemma SwapMultiset<T>(s: seq<T>, i: nat, j: nat)
    requires i < |s| && j < |s|
    ensures multiset(s[i := s[j]][j := s[i]]) == multiset(s)
  {
    if i != j {
      var mid := s[i := s[j]];
      assert multiset(mid) == multiset(s) - multiset{s[i]} + multiset{s[j]};
      assert mid[j] == s[j];
      assert multiset(mid[j := s[i]]) == multiset(mid) - multiset{s[j]} + multiset{s[i]};
    }
  }
}

=== FILE: template_editor.dfy ===
/**
  The template editor: the actuator records a template holds, the record
  selected in the list, and the buttons that edit them. Every button is a
  function from the editor's state to its next state; the details form is
  the map from field key to the text its widget holds.
 */
module TemplateEditor {
  import opened Wrappers
  import opened Text
  import opened Schema
  import opened Seqs

  /** The records of the template being edited and the selected list
      position, if any. */
  datatype Editor = Editor(records: seq<Record>, selected: Option<nat>)

  /** A selection always points at a record. */
  predicate Valid(e: Editor) {
    e.selected.Some? ==> e.selected.value < |e.records|
  }

  /** The suffix `copy_actuator` gives the name of a copy. */
  const CopySuffix: string := "_Copy"

  // ---------------------------------------------------------------------------
  // Adding, copying and deleting records
  // ---------------------------------------------------------------------------

  /** `add_actuator`: appends a record with every schema key set to the empty
      text, and selects it. Needs no selection. */
  function AddRecord(e: Editor): (r: Editor)
    ensures Valid(r)
    ensures |r.records| == |e.records| + 1 && r.records[..|e.records|] == e.records
    ensures forall k :: k in r.records[|e.records|] <==> k in Keys
    ensures forall k :: k in r.records[|e.records|] ==> r.records[|e.records|][k] == ""
    ensures r.selected == Some(|e.records|)
  {
    Editor(e.records + [EmptyRecord()], Some(|e.records|))
  }

  /** The record a copy starts as: the same fields, with `_Copy` added to the
      name unless the name already ends with it. A record without a name
      gets the name `_Copy`. */
  function CopyOf(rec: Record): (c: Record)
    ensures "name" in c && EndsWith(c["name"], CopySuffix)
    ensures EndsWith(Get(rec, "name"), CopySuffix) ==> c == rec
    ensures !EndsWith(Get(rec, "name"), CopySuffix) ==> c["name"] == Get(rec, "name") + CopySuffix
    ensures forall k :: k != "name" ==> (k in c <==> k in rec)
    ensures forall k :: k != "name" && k in rec ==> c[k] == rec[k]
  {
    var name := Get(rec, "name");
    if EndsWith(name, CopySuffix) then rec
    else
      assert EndsWith(name + CopySuffix, CopySuffix) by {
        assert (name + CopySuffix)[|name|..] == CopySuffix;
      }
      rec["name" := name + CopySuffix]
  }

  /** Copying a copy adds nothing more to its name. */
  lemma CopyIdempotent(rec: Record)
    ensures CopyOf(CopyOf(rec)) == CopyOf(rec)
  {
  }

  /** `copy_actuator`: appends a copy of the selected record and selects the
      copy; without a selection nothing changes. */
  function CopySelected(e: Editor): (r: Editor)
    requires Valid(e)
    ensures Valid(r)
    ensures e.selected.None? ==> r == e
    ensures e.selected.Some? ==>
      && |r.records| == |e.records| + 1
      && r.records[..|e.records|] == e.records
      && r.records[|e.records|] == CopyOf(e.records[e.selected.value])
      && r.selected == Some(|e.records|)
  {
    match e.selected
    case None => e
    case Some(i) => Editor(e.records + [CopyOf(e.records[i])], Some(|e.records|))
  }

  /** `delete_actuator`: once the user confirms, removes the selected record
      and clears the selection; without a selection, or when the user
      declines, nothing changes. */
  function DeleteSelected(e: Editor, confirmed: bool): (r: Editor)
    requires Valid(e)
    ensures Valid(r)
    ensures e.selected.None? || !confirmed ==> r == e
    ensures e.selected.Some? && confirmed ==>
      var i := e.selected.value;
      && |r.records| == |e.records| - 1
      && r.records[..i] == e.records[..i]
      && r.records[i..] == e.records[i + 1..]
      && r.selected.None?
  {
    match e.selected
    case None => e
    case Some(i) =>
      if confirmed then Editor(e.records[..i] + e.records[i + 1..], None) else e
  }

  /** Deleting removes exactly the selected record: every other record stays,
      as often as it was there. */
  lemma DeleteRemovesOne(e: Editor)
    requires Valid(e) && e.selected.Some?
    ensures multiset(DeleteSelected(e, true).records) + multiset{e.records[e.selected.value]}
         == multiset(e.records)
  {
    var i := e.selected.value;
    assert e.records == e.records[..i] + [e.records[i]] + e.records[i + 1..];
  }

  /** Deleting the record just added restores the list. */
  lemma DeleteUndoesAdd(e: Editor)
    ensures DeleteSelected(AddRecord(e), true).records == e.records
  {
    var added := AddRecord(e);
    assert added.records[|e.records| + 1..] == [];
  }

  // ---------------------------------------------------------------------------
  // Reordering
  // ---------------------------------------------------------------------------

  /** The records with positions `i` and `j` exchanged. */
  function Swap(records: seq<Record>, i: nat, j: nat): (r: seq<Record>)
    requires i < |records| && j < |records|
    ensures |r| == |records|
    ensures r[i] == records[j] && r[j] == records[i]
    ensures forall k :: 0 <= k < |records| && k != i && k != j ==> r[k] == records[k]
  {
    records[i := records[j]][j := records[i]]
  }

  /** Exchanging two records keeps the same records. */
  lemma SwapPermutes(records: seq<Record>, i: nat, j: nat)
    requires i < |records| && j < |records|
    ensures multiset(Swap(records, i, j)) == multiset(records)
  {
    SwapMultiset(records, i, j);
  }

  /** `move_up`: swaps the selected record with the one above it and moves
      the selection along; the first record, or no selection, stays put. */
  function MoveUp(e: Editor): (r: Editor)
    requires Valid(e)
    ensures Valid(r)
    ensures multiset(r.records) == multiset(e.records)
    ensures e.selected.None? || e.selected.value == 0 ==> r == e
    ensures e.selected.Some? && e.selected.value > 0 ==>
      var i := e.selected.value;
      && |r.records| == |e.records|
      && r.records[i - 1] == e.records[i] && r.records[i] == e.records[i - 1]
      && (forall k :: 0 <= k < |e.records| && k != i && k != i - 1 ==> r.records[k] == e.records[k])
      && r.selected == Some(i - 1)
  {
    match e.selected
    case None => e
    case Some(i) =>
      if i == 0 then e
      else
        SwapPermutes(e.records, i, i - 1);
        Editor(Swap(e.records, i, i - 1), Some(i - 1))
  }

  /** `move_down`: swaps the selected record with the one below it and moves
      the selection along; the last record, or no selection, stays put. */
  function MoveDown(e: Editor): (r: Editor)
    requires Valid(e)
    ensures Valid(r)
    ensures multiset(r.records) == multiset(e.records)
    ensures e.selected.None? || e.selected.value + 1 >= |e.records| ==> r == e
    ensures e.selected.Some? && e.selected.value + 1 < |e.records| ==>
      var i := e.selected.value;
      && |r.records| == |e.records|
      && r.records[i + 1] == e.records[i] && r.records[i] == e.records[i + 1]
      && (forall k :: 0 <= k < |e.records| && k != i && k != i + 1 ==> r.records[k] == e.records[k])
      && r.selected == Some(i + 1)
  {
    match e.selected
    case None => e
    case Some(i) =>
      if i + 1 >= |e.records| then e
      else
        SwapPermutes(e.records, i, i + 1);
        Editor(Swap(e.records, i, i + 1), Some(i + 1))
  }

  /** Exchanging two records twice restores the list. */
  lemma SwapTwice(records: seq<Record>, i: nat, j: nat)
    requires i < |records| && j < |records|
    ensures Swap(Swap(records, i, j), j, i) == records
  {
    var r := Swap(Swap(records, i, j), j, i);
    assert forall k :: 0 <= k < |records| ==> r[k] == records[k];
  }

  /** Moving a record down and then back up restores the editor. */
  lemma MoveUpUndoesMoveDown(e: Editor)
    requires Valid(e) && e.selected.Some? && e.selected.value + 1 < |e.records|
    ensures MoveUp(MoveDown(e)) == e
  {
    assert e == Editor(e.records, Some(e.selected.value));
    DownThenUp(e.records, e.selected.value);
  }

  /** Moving a record up and then back down restores the editor. */
  lemma MoveDownUndoesMoveUp(e: Editor)
    requires Valid(e) && e.selected.Some? && e.selected.value > 0
    ensures MoveDown(MoveUp(e)) == e
  {
    assert e == Editor(e.records, Some(e.selected.value));
    UpThenDown(e.records, e.selected.value);
  }

  /** `MoveUpUndoesMoveDown` for an editor given by its parts. */
  lemma DownThenUp(records: seq<Record>, i: nat)
    requires i + 1 < |records|
    ensures MoveUp(MoveDown(Editor(records, Some(i)))) == Editor(records, Some(i))
  {
    SwapTwice(records, i, i + 1);
  }

  /** `MoveDownUndoesMoveUp` for an editor given by its parts. */
  lemma UpThenDown(records: seq<Record>, i: nat)
    requires 0 < i < |records|
    ensures MoveDown(MoveUp(Editor(records, Some(i)))) == Editor(records, Some(i))
  {
    var up := Swap(records, i, i - 1);
    assert MoveUp(Editor(records, Some(i))) == Editor(up, Some(i - 1));
    assert |up| == |records|;
    assert MoveDown(Editor(up, Some(i - 1))) == Editor(Swap(up, i - 1, i), Some(i));
    SwapTwice(records, i, i - 1);
  }

  // ---------------------------------------------------------------------------
  // The details form
  // ---------------------------------------------------------------------------

  /** A details form holding a text for every schema field. */
  predicate FullForm(form: map<string, string>) {
    forall k :: k in Keys ==> k in form
  }

  /** `load_actuator_into_fields`: every field shows the record's text, or
      nothing when the record lacks the key. */
  function LoadForm(rec: Record): (form: map<string, string>)
    ensures FullForm(form)
    ensures forall k :: k in form <==> k in Keys
    ensures forall k :: k in Keys && k !in rec ==> form[k] == ""
    ensures forall k :: k in Keys && k in rec ==> form[k] == rec[k]
  {
    map k | k in Keys :: Get(rec, k)
  }

  /** The record after the form is written back: every schema field set to
      its stripped text; keys outside the schema are kept. */
  function Saved(rec: Record, form: map<string, string>): (s: Record)
    requires FullForm(form)
    ensures forall k :: k in Keys ==> k in s && s[k] == Strip(form[k])
    ensures forall k :: k !in Keys ==> (k in s <==> k in rec) && (k in rec ==> s[k] == rec[k])
  {
    rec + map k | k in Keys :: Strip(form[k])
  }

  /** `save_actuator_changes`: writes the form back into the selected record
      and keeps the selection; every other record is unchanged. Without a
      selection nothing changes. */
  function SaveChanges(e: Editor, form: map<string, string>): (r: Editor)
    requires Valid(e) && FullForm(form)
    ensures Valid(r)
    ensures r.selected == e.selected && |r.records| == |e.records|
    ensures e.selected.None? ==> r == e
    ensures e.selected.Some? ==>
      var i := e.selected.value;
      && (forall j :: 0 <= j < |e.records| && j != i ==> r.records[j] == e.records[j])
      && (forall k :: k in Keys ==> k in r.records[i] && r.records[i][k] == Strip(form[k]))
      && (forall k :: k !in Keys ==> (k in r.records[i] <==> k in e.records[i]))
      && (forall k :: k !in Keys && k in e.records[i] ==> r.records[i][k] == e.records[i][k])
  {
    match e.selected
    case None => e
    case Some(i) => Editor(e.records[i := Saved(e.records[i], form)], e.selected)
  }

  /** A record whose schema fields are all present and already stripped. */
  predicate Clean(rec: Record) {
    forall k :: k in Keys ==> k in rec && Strip(rec[k]) == rec[k]
  }

  /** Saving the form just loaded from a clean record changes nothing. */
  lemma SaveLoadedIsIdentity(e: Editor)
    requires Valid(e) && e.selected.Some? && Clean(e.records[e.selected.value])
    ensures SaveChanges(e, LoadForm(e.records[e.selected.value])) == e
  {
    var i := e.selected.value;
    var rec := e.records[i];
    var saved := Saved(rec, LoadForm(rec));
    assert saved == rec by {
      assert forall k :: k in saved <==> k in rec;
    }
    assert e.records[i := rec] == e.records;
  }

  /** Every save leaves a clean record, so loading it and saving again is the
      identity: a second press of the save button changes nothing. */
  lemma SaveIsIdempotent(e: Editor, form: map<string, string>)
    requires Valid(e) && FullForm(form) && e.selected.Some?
    ensures Clean(SaveChanges(e, form).records[e.selected.value])
    ensures var r := SaveChanges(e, form);
      SaveChanges(r, LoadForm(r.records[e.selected.value])) == r
  {
    var r := SaveChanges(e, form);
    var rec := r.records[e.selected.value];
    forall k | k in Keys ensures k in rec && Strip(rec[k]) == rec[k] {
      StripIdempotent(form[k]);
    }
    SaveLoadedIsIdentity(r);
  }

  // ---------------------------------------------------------------------------
  // Saving the template
  // ---------------------------------------------------------------------------

  /** The dialog's result: the template's name, description and records. */
  datatype Template = Template(name: string, description: string, actuators: seq<Record>)

  /** The error `save_template` reports instead of closing. */
  datatype TemplateError = NameRequired

  /** `save_template`: refuses a name that is empty once stripped; otherwise
      the result carries the stripped name, the stripped description and the
      records as edited. */
  function SaveTemplate(name: string, description: string, records: seq<Record>)
    : (r: Result<Template, TemplateError>)
    ensures r.Failure? <==> forall k :: 0 <= k < |name| ==> IsSpace(name[k])
    ensures r.Success? ==>
      && r.value.name != ""
      && !IsSpace(r.value.name[0]) && !IsSpace(r.value.name[|r.value.name| - 1])
      && r.value.name == Strip(name)
      && r.value.description == Strip(description)
      && r.value.actuators == records
  {
    StripSlice(name);
    var stripped := Strip(name);
    if stripped == "" then Failure(NameRequired)
    else Success(Template(stripped, Strip(description), records))
  }

  /** Saving a saved template again gives the same template. */
  lemma SaveTemplateIdempotent(name: string, description: string, records: seq<Record>)
    requires SaveTemplate(name, description, records).Success?
    ensures var t := SaveTemplate(name, description, records).value;
      SaveTemplate(t.name, t.description, t.actuators) == Success(t)
  {
    StripIdempotent(name);
    StripIdempotent(description);
  }
}

=== FILE: text.dfy ===
/**
  The handful of Python string methods the tool relies on (`strip`, `isdigit`,
  `isalnum`, `endswith`, `replace`, `join`), stated over ASCII text, and a
  `Split` used only to read clipboard text back for the round-trip lemmas.
  Characters outside ASCII are never whitespace, digits or alphanumerics here.
 */
module Text {

  /** A character Python's argument-less `str.strip` removes, restricted to
      ASCII: tab, line feed, vertical tab, form feed, carriage return, the
      four information separators 0x1C-0x1F, and space. */
  predicate IsSpace(c: char) {
    c == ' ' || 9 <= c as int <= 13 || 28 <= c as int <= 31
  }

  predicate IsDigit(c: char) {
    '0' <= c <= '9'
  }

  predicate IsAlnumChar(c: char) {
    IsDigit(c) || 'a' <= c <= 'z' || 'A' <= c <= 'Z'
  }

  /** `str.isdigit`: false on the empty string. */
  predicate IsDigits(s: string) {
    |s| > 0 && forall k :: 0 <= k < |s| ==> IsDigit(s[k])
  }

  /** `str.isalnum`: false on the empty string. */
  predicate IsAlnum(s: string) {
    |s| > 0 && forall k :: 0 <= k < |s| ==> IsAlnumChar(s[k])
  }

  /** `str.endswith` */
  predicate EndsWith(s: string, suffix: string) {
    |suffix| <= |s| && s[|s| - |suffix|..] == suffix
  }

  /** `pat` occurs in `s` starting at position `k`. */
  predicate OccursAt(s: string, pat: string, k: int) {
    0 <= k && k + |pat| <= |s| && s[k..k + |pat|] == pat
  }

  /** Python's `pat in s`, decided from the front: `s` is long enough and
      either starts with `pat` or holds it after its first character.
      `ContainsOccurs` states it as an occurrence at some position. */
  predicate Contains(s: string, pat: string)
    decreases |s|
  {
    |pat| <= |s| && (s[..|pat|] == pat || Contains(s[1..], pat))
  }

  /** `pat in s` exactly when `pat` occurs at some position of `s`. */
  lemma {:induction false} ContainsOccurs(s: string, pat: string)
    ensures Contains(s, pat) <==> exists k :: OccursAt(s, pat, k)
    decreases |s|
  {
    if |pat| <= |s| && s[..|pat|] != pat {
      ContainsOccurs(s[1..], pat);
      if exists k :: OccursAt(s, pat, k) {
        var k :| OccursAt(s, pat, k);
        assert k > 0;
        assert s[1..][k - 1..k - 1 + |pat|] == s[k..k + |pat|];
        assert OccursAt(s[1..], pat, k - 1);
      }
      if exists k :: OccursAt(s[1..], pat, k) {
        var k :| OccursAt(s[1..], pat, k);
        assert s[k + 1..k + 1 + |pat|] == s[1..][k..k + |pat|];
        assert OccursAt(s, pat, k + 1);
      }
    } else if |pat| <= |s| {
      assert OccursAt(s, pat, 0);
    }
  }

  /** `str.lstrip()` */
  function StripLeft(s: string): (r: string)
    ensures |r| <= |s|
    decreases |s|
  {
    if |s| > 0 && IsSpace(s[0]) then StripLeft(s[1..]) else s
  }

  /** `str.rstrip()` */
  function StripRight(s: string): (r: string)
    ensures |r| <= |s|
    decreases |s|
  {
    if |s| > 0 && IsSpace(s[|s| - 1]) then StripRight(s[..|s| - 1]) else s
  }

  /** `str.strip()`; its meaning is spelled out by `StripSlice`. */
  function Strip(s: string): (r: string)
    ensures |r| <= |s|
  {
    StripRight(StripLeft(s))
  }

  /** `lstrip` drops the leading whitespace and nothing else. */
  lemma {:induction false} StripLeftSlice(s: string)
    ensures var r := StripLeft(s);
      && r == s[|s| - |r|..]
      && (forall k :: 0 <= k < |s| - |r| ==> IsSpace(s[k]))
      && (|r| > 0 ==> !IsSpace(r[0]))
    decreases |s|
  {
    if |s| > 0 && IsSpace(s[0]) {
      StripLeftSlice(s[1..]);
    }
  }

  /** `rstrip` drops the trailing whitespace and nothing else. */
  lemma {:induction false} StripRightSlice(s: string)
    ensures var r := StripRight(s);
      && r == s[..|r|]
      && (forall k :: |r| <= k < |s| ==> IsSpace(s[k]))
      && (|r| > 0 ==> !IsSpace(r[|r| - 1]))
    decreases |s|
  {
    if |s| > 0 && IsSpace(s[|s| - 1]) {
      StripRightSlice(s[..|s| - 1]);
    }
  }

  /** The stripped text is the slice of `s` left between a run of leading
      and a run of trailing whitespace; it neither starts nor ends with
      whitespace, and it is empty exactly when `s` is all whitespace. */
  lemma StripSlice(s: string)
    ensures var r := Strip(s); var lo := |s| - |StripLeft(s)|;
      && lo + |r| <= |s|
      && r == s[lo..lo + |r|]
      && (forall k :: 0 <= k < lo ==> IsSpace(s[k]))
      && (forall k :: lo + |r| <= k < |s| ==> IsSpace(s[k]))
      && (|r| > 0 ==> !IsSpace(r[0]) && !IsSpace(r[|r| - 1]))
      && (r == [] <==> forall k :: 0 <= k < |s| ==> IsSpace(s[k]))
  {
    var t := StripLeft(s);
    var r := StripRight(t);
    StripLeftSlice(s);
    StripRightSlice(t);
    var lo := |s| - |t|;
    assert forall k :: 0 <= k < |t| ==> t[k] == s[lo + k];
    if r != [] {
      assert r[0] == t[0];
    }
  }

  /** Stripping twice is stripping once. */
  lemma StripIdempotent(s: string)
    ensures Strip(Strip(s)) == Strip(s)
  {
    var r := Strip(s);
    StripSlice(s);
    assert StripLeft(r) == r;
    assert StripRight(r) == r;
  }

  /** `s.replace(pat, rep)` for a non-empty `pat`: scanning left to right,
      every occurrence of `pat` that does not overlap an occurrence already
      replaced becomes `rep`; everything else is copied. */
  function ReplaceAll(s: string, pat: string, rep: string): (r: string)
    requires |pat| > 0
    ensures !Contains(s, pat) ==> r == s
    ensures rep == pat ==> r == s
    decreases |s|
  {
    if |s| < |pat| then s
    else if s[..|pat|] == pat then rep + ReplaceAll(s[|pat|..], pat, rep)
    else [s[0]] + ReplaceAll(s[1..], pat, rep)
  }

  /** A text that starts with `pat` has that first occurrence replaced. */
  lemma ReplaceLeading(pat: string, rest: string, rep: string)
    requires |pat| > 0
    ensures ReplaceAll(pat + rest, pat, rep) == rep + ReplaceAll(rest, pat, rep)
  {
    assert (pat + rest)[..|pat|] == pat;
    assert (pat + rest)[|pat|..] == rest;
  }

  /** `pat` opens with a character found nowhere else in it, as `{` in
      `{ActuatorName}`: no occurrence can overlap the start of another. */
  predicate UniqueHead(pat: string) {
    |pat| > 0 && forall k :: 0 < k < |pat| ==> pat[k] != pat[0]
  }

  /** Text without `pat`, then `pat`: the text is kept, the occurrence replaced,
      and the replacement carries on after it. */
  lemma {:induction false} ReplaceAfterPlain(x: string, pat: string, rep: string, y: string)
    requires UniqueHead(pat)
    requires !Contains(x, pat)
    ensures ReplaceAll(x + pat + y, pat, rep) == x + rep + ReplaceAll(y, pat, rep)
    decreases |x|
  {
    if x == [] {
      assert x + pat + y == pat + y;
      ReplaceLeading(pat, y, rep);
    } else {
      ReplaceAfterPlain(x[1..], pat, rep, y);
      NoMatchAcross(x, pat, y);
      ReplaceCopiesHead(x, pat, rep, y);
      ConsSplit(x, rep, ReplaceAll(y, pat, rep));
    }
  }

  /** Text that does not start with `pat` keeps its first character. */
  lemma ReplaceCopiesHead(x: string, pat: string, rep: string, y: string)
    requires |pat| > 0 && x != []
    requires (x + pat + y)[..|pat|] != pat
    ensures ReplaceAll(x + pat + y, pat, rep) == [x[0]] + ReplaceAll(x[1..] + pat + y, pat, rep)
  {
    var s := x + pat + y;
    assert s[0] == x[0];
    assert s[1..] == x[1..] + pat + y;
  }

  lemma ConsSplit(x: string, a: string, b: string)
    requires x != []
    ensures [x[0]] + (x[1..] + a + b) == x + a + b
  {
    assert x == [x[0]] + x[1..];
  }

  /** No occurrence of `pat` starts inside `x` when `x` holds none. */
  lemma NoMatchAcross(x: string, pat: string, y: string)
    requires UniqueHead(pat)
    requires x != [] && !Contains(x, pat)
    ensures (x + pat + y)[..|pat|] != pat
  {
    var s := x + pat + y;
    if |x| >= |pat| {
      assert s[..|pat|] == x[..|pat|];
    } else {
      assert s[|x|] == pat[0];
      assert pat[|x|] != pat[0];
      assert s[..|pat|][|x|] != pat[|x|];
    }
  }

  /** Pieces free of `pat`, joined by `pat`: every joining occurrence, and only
      those, becomes `rep`. */
  lemma {:induction false} ReplaceJoined(pieces: seq<string>, pat: string, rep: string)
    requires UniqueHead(pat)
    requires |pieces| >= 1
    requires forall k :: 0 <= k < |pieces| ==> !Contains(pieces[k], pat)
    ensures ReplaceAll(Join(pieces, pat), pat, rep) == Join(pieces, rep)
    decreases |pieces|
  {
    if |pieces| > 1 {
      var rest := pieces[1..];
      ReplaceJoined(rest, pat, rep);
      ReplaceAfterPlain(pieces[0], pat, rep, Join(rest, pat));
    }
  }

  /** Number of occurrences `ReplaceAll` replaces: leftmost first, without overlap. */
  function CountOccurrences(s: string, pat: string): (n: nat)
    requires |pat| > 0
    ensures n == 0 <==> !Contains(s, pat)
    ensures n * |pat| <= |s|
    decreases |s|
  {
    if |s| < |pat| then 0
    else if s[..|pat|] == pat then
      var c := CountOccurrences(s[|pat|..], pat);
      MulStep(c, |pat|);
      1 + c
    else CountOccurrences(s[1..], pat)
  }

  /** Each replacement changes the length by `|rep| - |pat|`. */
  lemma {:induction false} ReplaceLength(s: string, pat: string, rep: string)
    requires |pat| > 0
    ensures |ReplaceAll(s, pat, rep)| == |s| + CountOccurrences(s, pat) * (|rep| - |pat|)
    decreases |s|
  {
    var d := |rep| - |pat|;
    if |s| < |pat| {
      assert CountOccurrences(s, pat) == 0;
    } else if s[..|pat|] == pat {
      var rest := s[|pat|..];
      var c := CountOccurrences(rest, pat);
      ReplaceLength(rest, pat, rep);
      assert ReplaceAll(s, pat, rep) == rep + ReplaceAll(rest, pat, rep);
      assert CountOccurrences(s, pat) == 1 + c;
      MulStep(c, d);
    } else {
      ReplaceLength(s[1..], pat, rep);
      assert ReplaceAll(s, pat, rep) == [s[0]] + ReplaceAll(s[1..], pat, rep);
      assert CountOccurrences(s, pat) == CountOccurrences(s[1..], pat);
    }
  }

  lemma MulStep(c: int, d: int)
    ensures (1 + c) * d == d + c * d
  {
  }

  /** `s.replace(c, "")` deletes every `c` and keeps every other character,
      as many times as it occurs in `s`. */
  lemma {:induction false} DeleteChar(s: string, c: char)
    ensures c !in ReplaceAll(s, [c], "")
    ensures forall d :: d != c ==> multiset(ReplaceAll(s, [c], ""))[d] == multiset(s)[d]
    decreases |s|
  {
    if |s| < 1 {
    } else {
      var r := ReplaceAll(s[1..], [c], "");
      DeleteChar(s[1..], c);
      assert s == [s[0]] + s[1..];
      if s[..1] == [c] {
        assert ReplaceAll(s, [c], "") == r;
      } else {
        assert ReplaceAll(s, [c], "") == [s[0]] + r;
      }
    }
  }

  /** `sep.join(cells)` */
  function Join(cells: seq<string>, sep: string): (r: string)
    decreases |cells|
  {
    if |cells| == 0 then ""
    else if |cells| == 1 then cells[0]
    else cells[0] + sep + Join(cells[1..], sep)
  }

  /** `s.split(sep)` for a one-character separator: the text is cut at every
      separator, so there is always one piece more than there are separators,
      and no piece contains the separator. */
  function Split(s: string, sep: char): (pieces: seq<string>)
    ensures |pieces| >= 1
    ensures forall k :: 0 <= k < |pieces| ==> sep !in pieces[k]
    decreases |s|
  {
    if s == [] then [""]
    else
      var rest := Split(s[1..], sep);
      if s[0] == sep then [""] + rest
      else [[s[0]] + rest[0]] + rest[1..]
  }

  /** Text without the separator is one piece. */
  lemma {:induction false} SplitNone(s: string, sep: char)
    requires sep !in s
    ensures Split(s, sep) == [s]
    decreases |s|
  {
    if s != [] {
      assert sep !in s[1..];
      SplitNone(s[1..], sep);
      assert [s[0]] + s[1..] == s;
    }
  }

  /** Splitting at a separator splits the two sides independently. */
  lemma {:induction false} SplitAround(x: string, sep: char, y: string)
    ensures Split(x + [sep] + y, sep) == Split(x, sep) + Split(y, sep)
    decreases |x|
  {
    var s := x + [sep] + y;
    if x == [] {
      assert s[1..] == y;
    } else {
      assert s[0] == x[0];
      assert s[1..] == x[1..] + [sep] + y;
      SplitAround(x[1..], sep, y);
    }
  }

  /** Joining cells free of the separator and splitting again gives the cells back. */
  lemma {:induction false} SplitJoin(cells: seq<string>, sep: char)
    requires |cells| >= 1
    requires forall k :: 0 <= k < |cells| ==> sep !in cells[k]
    ensures Split(Join(cells, [sep]), sep) == cells
    decreases |cells|
  {
    SplitNone(cells[0], sep);
    if |cells| > 1 {
      var rest := cells[1..];
      SplitJoin(rest, sep);
      assert Join(cells, [sep]) == cells[0] + [sep] + Join(rest, [sep]);
      SplitAround(cells[0], sep, Join(rest, [sep]));
      assert cells == [cells[0]] + rest;
    }
  }

  /** A joined line holds the separator only where the join put it. */
  lemma {:induction false} JoinFree(cells: seq<string>, sep: string, c: char)
    requires c !in sep
    requires forall k :: 0 <= k < |cells| ==> c !in cells[k]
    ensures c !in Join(cells, sep)
    decreases |cells|
  {
    if |cells| > 1 {
      JoinFree(cells[1..], sep, c);
    }
  }
}

=== FILE: wrappers.dfy ===
/** Failure-compatible datatypes shared by the other modules. */
module Wrappers {

  /** An optional value; used for the editor's list selection. */
  datatype Option<+T> = None | Some(value: T)

  /** Either a value or the error that stopped its computation. */
  datatype Result<+T, +E> = Success(value: T) | Failure(error: E)
}
